=== FILE: README.md ===
# pyatem record decoders and converter tables, in Dafny

This project models two parts of pyatem, a Python client for Blackmagic
Design ATEM video mixers and Micro Converter boxes.

- **The mixer record decoders** (`pyatem/field.py`). The mixer sends state
  as tagged binary records. Each `*Field` class unpacks one record's payload
  with a big-endian `struct` format and exposes named values. The model has
  one datatype per record and one total decoder per record
  (`Field.Decode…`). A decoder returns `Success(record)`, or `Failure(e)`
  where `e` is the `struct.error` Python raises for that payload:
  - `WrongSize` from `unpack`, which needs an exact size;
  - `TooShort` from `unpack_from`, which needs enough bytes at an offset;
  - `BadFormat` for a format string that cannot be built.
- **The helpers those decoders share**, each in its own module:
  - `Struct`: the `struct` codes `B`, `H`, `?`, `x`, `Ns` and `Np`;
  - `FieldBase`: `_get_string`;
  - `VideoModes`: the video mode table and `get_label`;
  - `DecimalText`: how Python's `str()` prints a natural number.
- **The converter tables** (`pyatem/converters/converter.py`). Each Micro
  Converter product lists its settings as descriptors. The label protocol
  finds a setting by its (category, label) text. The `wValue` protocol finds
  it at a byte offset and width in a flat parameter block. Module
  `Converter` transcribes the three profiles. Module `ConverterLaws` states
  and proves the invariants the rest of the library relies on:
  - names are unique;
  - value mappings are injective and fit in one byte;
  - byte ranges are disjoint;
  - `NAME_FIELD` is the offset of `DeviceName`;
  - the read-only and system settings are the expected ones;
  - a setting shared between profiles keeps its category and label.

Each record is its own datatype rather than a constructor of one shared
record type. In pyatem every `*Field` class is independent, and the same
attribute name has different widths in different records (`index` is one
byte in some and two in others), which Dafny does not allow for the
destructors of one datatype.

Module `FieldLaws` holds the partner of every decoder:
- an encoder that lays a record out in its wire format;
- a round-trip lemma: decode after encode gives the record back;
- for the fixed-size records, a normal-form lemma: encode after decode
  gives back every payload of the right size, with its pad bytes cleared,
  each `?` byte written as 0 or 1 and each bitfield byte cut to the bits
  the record reads. Together with the round trip, this fixes what the
  decoder returns for every payload. `_ver` states it in its round-trip
  lemma, and `InPr` states the same field by field;
- a lemma saying the decoder ignores the pad (`x`) bytes and every other
  byte it does not read.

The encoders belong to the model only; pyatem itself has no encoders for
these records.

Conventions:
- Bytes are the subset types `byte` and `u16` of `int`.
- Bit `k` of a byte `b` is `(b / 2^k) % 2 == 1`, which is Python's
  `b & (1 << k) != 0`.
- Fixed-point values are exact `real` quotients.
- Frame rates are kept in hundredths of a hertz (59.94 is 5994). The label
  prints them exactly as Python prints the table's numbers.

Where the record documentation and the code disagree, the model follows
the code:
- `TrSS` is unpacked as 8 bytes (`>B 2B 2B 3x`).
- `InPr` keeps the flag bytes at offsets 34 and 35.
- `_pin` accepts a payload of any length. The documentation gives 44 bytes.
- `MPfe` clamps its name to the bytes present instead of rejecting a
  length mismatch.
- A transition position can exceed 1.0, because 65535 / 9999 > 1.

## Model

| member | source | states |
|---|---|---|
| Struct.U16Bytes | pyatem/field.py:32 | packing a value as `>H` and reading it back gives the value: the most significant byte comes first |
| Struct.U16BytesOfRead | pyatem/field.py:32 | reading `>H` and packing the result gives back exactly the two bytes read |
| Struct.TruthByte | pyatem/field.py:465 | the byte packed for a bool reads back as that bool under `?` (nonzero is true) |
| Struct.Mask5 | pyatem/field.py:301-305 | a byte built from five flags is below 32: bits 5..7 are clear |
| Struct.Mask5Bits | pyatem/field.py:427-437 | each of the five flags written into a byte reads back from its own bit as `b & (1 << k) != 0`, independently of the other four |
| Struct.Mask5OfBits | pyatem/field.py:427-437 | the five flags read from bits 0..4 determine the byte modulo 32, so bits 5..7 are ignored and nothing else is lost |
| Struct.Mask2OfBits | pyatem/field.py:307-308 | the two flags read from bits 0 and 1 determine the byte modulo 4, so bits 2..7 are ignored |
| Struct.PascalString | pyatem/field.py:696-697 | `Np` yields min(length byte, N-1) bytes, which are the bytes right after the length byte; for a zero-width field the model chooses to yield nothing (see Left out) |
| Struct.PascalRoundTrip | pyatem/field.py:696-697 | a name written after its length byte in a field with room for it reads back unchanged |
| FieldBase.CString | pyatem/field.py:6-7 | `_get_string` yields a prefix of the bytes that holds no NUL and is followed by a NUL unless it is the whole input |
| FieldBase.Split | pyatem/field.py:7 | `bytes.split` yields at least one piece, and no piece contains the separator |
| FieldBase.CStringIsFirstPiece | pyatem/field.py:6-7 | the text `_get_string` keeps is exactly the first piece of splitting on NUL |
| FieldBase.CStringOfTerminated | pyatem/field.py:6-7 | NUL-free text followed by a NUL, or by nothing, reads back as itself, whatever follows the NUL |
| FieldBase.TextField | pyatem/field.py:293 | a text padded into an `Ns` field takes exactly `N` bytes |
| FieldBase.TextFieldRoundTrip | pyatem/field.py:293-296 | NUL-free text of at most `N` bytes, padded into an `Ns` field, reads back unchanged |
| FieldBase.CStringIdempotent | pyatem/field.py:6-7 | applying `_get_string`'s cut twice is the same as applying it once |
| DecimalText.DigitChar | pyatem/field.py:33 | the character printed for a digit value is a decimal digit |
| DecimalText.DigitValue | pyatem/field.py:33 | a decimal digit stands for a value below ten |
| DecimalText.Decimal | pyatem/field.py:33 | `str(n)` is a nonempty string of digits with no leading zero, and has one digit exactly when `n < 10` |
| DecimalText.ParseDecimalRoundTrip | pyatem/field.py:33 | reading the printed digits back gives the number again |
| DecimalText.DecimalInjective | pyatem/field.py:33 | different numbers print differently |
| VideoModes.FormatOf | pyatem/field.py:164-190 | a mode code has a table row exactly when it is 0..17, 26 or 27, and a known code gets its row from the table |
| VideoModes.RateText | pyatem/field.py:199 | a frame rate prints as text that starts with a digit |
| VideoModes.Label | pyatem/field.py:192-199 | the label starts `unknown [` exactly when the mode has no table row; a known mode's label starts with its resolution in decimal |
| VideoModes.LabelAsWritten | pyatem/field.py:192-194 | as written, `get_label` fails exactly for the codes with no table row, and otherwise returns the same label |
| Field.DecodeFirmwareVersion | pyatem/field.py:27-33 | `_ver` succeeds exactly on a 4-byte payload and otherwise reports the expected and actual sizes |
| Field.DecodeProductName | pyatem/field.py:54-56 | `_pin` accepts any payload, and its name is the payload up to its first NUL byte, or all of it when there is none |
| Field.DecodeMixerEffectConfig | pyatem/field.py:81-83 | `_MeC` succeeds exactly on 4 bytes, otherwise it fails with a size error |
| Field.DecodeMediaplayerSlots | pyatem/field.py:106-108 | `_mpl` succeeds exactly on 4 bytes, otherwise it fails with a size error |
| Field.DecodeVideoMode | pyatem/field.py:160-190 | `VidM` succeeds exactly on 4 bytes; the mode is byte 0, and it has a format exactly for the table's codes |
| Field.DecodeInputProperties | pyatem/field.py:291-308 | `InPr` succeeds exactly on 36 bytes; the name and short name are bytes 2..22 and 22..26 each cut at its first NUL |
| Field.DecodeProgramBusInput | pyatem/field.py:334-336 | `PrgI` succeeds exactly on 4 bytes, otherwise it fails with a size error |
| Field.DecodePreviewBusInput | pyatem/field.py:365-368 | `PrvI` succeeds exactly on 8 bytes; `in_program` holds exactly when byte 4 equals 1 |
| Field.DecodeTransitionSettings | pyatem/field.py:423-437 | `TrSS` succeeds exactly on 8 bytes, otherwise it fails with a size error |
| Field.DecodeTransitionPreview | pyatem/field.py:463-465 | `TsPr` succeeds exactly on 4 bytes; `enabled` holds exactly when byte 1 is nonzero |
| Field.DecodeTransitionPosition | pyatem/field.py:496-499 | `TrPs` succeeds exactly on 8 bytes; `in_transition` holds exactly when byte 1 is nonzero; the position lies in 0..65535/9999 |
| Field.TallyIndexEntries | pyatem/field.py:529-533 | the `TlIn` loop reads `remaining` single bytes from `offset`, each as (program, preview), or fails at the end of the payload |
| Field.DecodeTallyIndex | pyatem/field.py:524-533 | `TlIn` succeeds exactly when the count and `num` bytes are present; light `i` comes from byte `2 + i`; a short payload gives the `unpack_from` error at the offset where it ran out |
| Field.TallySourceEntries | pyatem/field.py:562-566 | the `TlSr` loop reads `remaining` (source, bits) triples from `offset`, or fails at the first triple that does not fit |
| Field.LastWins | pyatem/field.py:561-566 | assigning each pair into the dictionary in wire order keys it by exactly the sources that occur, and each source keeps the value of its last occurrence |
| Field.DecodeTallySource | pyatem/field.py:557-566 | `TlSr` succeeds exactly when the count and `3 * num` bytes are present, otherwise it reports where the triple ran out |
| Field.DecodeKeyOnAir | pyatem/field.py:592-594 | `KeOn` succeeds exactly on 4 bytes; `enabled` holds exactly when byte 2 is nonzero |
| Field.DecodeColorGenerator | pyatem/field.py:621-626 | `ColV` succeeds exactly on 8 bytes; hue lies in 0..6553.5, saturation and luma in 0..65.535 |
| Field.DecodeFadeToBlackState | pyatem/field.py:657-659 | `FtbS` succeeds exactly on 4 bytes; `done` and `transitioning` hold exactly when bytes 1 and 2 are nonzero |
| Field.DecodeMediaplayerFileInfo | pyatem/field.py:693-697 | `MPfe` fails with a bad format below 23 bytes; otherwise `kind` is byte 0, `index` the big-endian word at 2, `is_used` holds exactly when byte 4 is nonzero, the hash is bytes 5..21 and the name is clamped to the bytes after its length byte; at exactly 23 bytes the model's chosen result is an empty name (see Left out) |
| FieldLaws.LayersRoundTrip | pyatem/field.py:427-437 | five layer flags survive a trip through the layer byte, and a layer byte survives the trip modulo 32 |
| FieldLaws.AvailabilityRoundTrip | pyatem/field.py:301-305 | five availability flags survive a trip through their byte, and the byte survives the trip modulo 32 |
| FieldLaws.TwoFlagRoundTrip | pyatem/field.py:307-308 | the M/E availability pair and a tally pair survive a trip through their byte, and either pair read from any byte carries exactly its bits 0..1 |
| FieldLaws.Quantize | pyatem/field.py:499 | the wire integer chosen for a fixed-point value is the largest whose quotient does not exceed it |
| FieldLaws.EncodeFirmwareVersion | pyatem/field.py:32 | a version is laid out in the 4 bytes `>HH` needs |
| FieldLaws.FirmwareVersionRoundTrip | pyatem/field.py:27-33 | decoding an encoded version gives it back, and every 4-byte payload is the encoding of what it decodes to |
| FieldLaws.VersionText | pyatem/field.py:33 | the `version` text contains a dot |
| FieldLaws.VersionTextInjective | pyatem/field.py:32-33 | two versions with the same text are the same version |
| FieldLaws.EncodeProductName | pyatem/field.py:54-56 | a product name is laid out as a 44-byte NUL-padded field |
| FieldLaws.ProductNameRoundTrip | pyatem/field.py:54-56 | a NUL-free name of at most 44 bytes reads back unchanged |
| FieldLaws.EncodeMixerEffectConfig | pyatem/field.py:83 | the record is laid out in the 4 bytes `>2B2x` needs |
| FieldLaws.MixerEffectConfigRoundTrip | pyatem/field.py:81-83 | decoding an encoded record gives it back |
| FieldLaws.MixerEffectConfigPadding | pyatem/field.py:83 | payloads that differ only in pad bytes 2 and 3 decode alike |
| FieldLaws.MixerEffectConfigNormalForm | pyatem/field.py:81-83 | every 4-byte payload decodes to `me` = byte 0 and `keyers` = byte 1: re-encoding gives the payload with its pad bytes cleared |
| FieldLaws.EncodeMediaplayerSlots | pyatem/field.py:108 | the record is laid out in the 4 bytes `>2B2x` needs |
| FieldLaws.MediaplayerSlotsRoundTrip | pyatem/field.py:106-108 | decoding an encoded record gives it back |
| FieldLaws.MediaplayerSlotsPadding | pyatem/field.py:108 | payloads that differ only in pad bytes 2 and 3 decode alike |
| FieldLaws.MediaplayerSlotsNormalForm | pyatem/field.py:106-108 | every 4-byte payload decodes to `stills` = byte 0 and `clips` = byte 1: re-encoding gives the payload with its pad bytes cleared |
| FieldLaws.EncodeVideoMode | pyatem/field.py:162 | the mode is laid out in the 4 bytes `>1B3x` needs |
| FieldLaws.VideoModeRoundTrip | pyatem/field.py:160-190 | a mode whose format is its table row decodes back to itself |
| FieldLaws.VideoModePadding | pyatem/field.py:162 | payloads that differ only in pad bytes 1..3 decode alike |
| FieldLaws.VideoModeNormalForm | pyatem/field.py:160-190 | every 4-byte payload re-encodes to its mode byte followed by three zero bytes |
| FieldLaws.VideoModeKnown | pyatem/field.py:187-190 | a table code decodes with that code's table row as its format |
| FieldLaws.VideoModeUnknown | pyatem/field.py:187-194 | codes 18..25 and 28..255 decode without a format, and their label is `unknown [<code>]` |
| FieldLaws.VideoModeLabels | pyatem/field.py:171-199 | mode 7 is labelled `1080i59.94` and mode 26 `1080p30`, the way Python prints the table's numbers |
| FieldLaws.VideoModeLabelInterlaced | pyatem/field.py:187-199 | mode 7 decodes to 1080 lines, interlaced, 59.94 Hz, and is labelled `1080i59.94` |
| FieldLaws.VideoModeLabelProgressive | pyatem/field.py:187-199 | mode 26 decodes to 1080 lines, progressive, 30 Hz, and is labelled `1080p30`: a whole rate prints without a fraction |
| FieldLaws.VideoModeLabelAsWrittenFails | pyatem/field.py:187-194 | payload [18,0,0,0] decodes, the as-written `get_label` fails on it, and the corrected label is `unknown [18]` |
| FieldLaws.EncodeInputProperties | pyatem/field.py:293 | input properties are laid out in the 36 bytes `>H 20s 4s 10B` needs |
| FieldLaws.InputPropertiesRoundTrip | pyatem/field.py:291-308 | input properties whose names fit their fields and hold no NUL decode back to themselves |
| FieldLaws.InputPropertiesUnusedBytes | pyatem/field.py:293-308 | payloads that differ only in the unread bytes 27, 28, 30, 31 and 33 decode alike |
| FieldLaws.InputPropertiesFlagBytesIndependent | pyatem/field.py:301-308 | changing byte 35 leaves the M/E availability unchanged, and changing byte 34 leaves the other availability flags unchanged |
| FieldLaws.InputPropertiesFromBytes | pyatem/field.py:291-308 | for every 36-byte payload the index is the big-endian word at 0, category, ports and port type are bytes 26, 29 and 32, the routing flags are exactly bits 0..4 of byte 34 and the M/E flags exactly bits 0..1 of byte 35 |
| FieldLaws.EncodeProgramBusInput | pyatem/field.py:336 | the record is laid out in the 4 bytes `>BxH` needs |
| FieldLaws.ProgramBusInputRoundTrip | pyatem/field.py:334-336 | decoding an encoded record gives it back |
| FieldLaws.ProgramBusInputPadding | pyatem/field.py:336 | payloads that differ only in pad byte 1 decode alike |
| FieldLaws.ProgramBusInputNormalForm | pyatem/field.py:334-336 | every 4-byte payload re-encodes to itself with pad byte 1 cleared: `me` is byte 0 and the source the word at 2 |
| FieldLaws.EncodePreviewBusInput | pyatem/field.py:367 | the record is laid out in the 8 bytes `>B x H B 3x` needs |
| FieldLaws.PreviewBusInputRoundTrip | pyatem/field.py:365-368 | decoding an encoded record gives it back |
| FieldLaws.PreviewBusInputPadding | pyatem/field.py:367 | payloads that differ only in pad bytes 1, 5, 6 and 7 decode alike |
| FieldLaws.PreviewBusInputNormalForm | pyatem/field.py:365-368 | every 8-byte payload re-encodes to itself with the pad bytes cleared and byte 4 written as 1 exactly when it was 1 |
| FieldLaws.InProgramIsNotTruth | pyatem/field.py:368 | `PrvI` reads byte value 2 as not in program, where a `?` byte such as `TsPr`'s reads 2 as true |
| FieldLaws.EncodeTransitionSettings | pyatem/field.py:425 | the record is laid out in the 8 bytes `>B 2B 2B 3x` needs |
| FieldLaws.TransitionSettingsRoundTrip | pyatem/field.py:423-437 | decoding encoded transition settings gives them back |
| FieldLaws.TransitionSettingsPadding | pyatem/field.py:425 | payloads that differ only in pad bytes 5..7 decode alike |
| FieldLaws.TransitionSettingsLayerBytesIndependent | pyatem/field.py:427-437 | changing the next-next layer byte leaves the next layers unchanged, and the other way round |
| FieldLaws.TransitionSettingsNormalForm | pyatem/field.py:423-437 | every 8-byte payload re-encodes to itself with the pad bytes cleared and each layer byte cut to its bits 0..4: the layer flags are exactly those bits |
| FieldLaws.EncodeTransitionPreview | pyatem/field.py:465 | the record is laid out in the 4 bytes `>B ? 2x` needs |
| FieldLaws.TransitionPreviewRoundTrip | pyatem/field.py:463-465 | decoding an encoded record gives it back |
| FieldLaws.TransitionPreviewPadding | pyatem/field.py:465 | payloads that differ only in pad bytes 2 and 3 decode alike |
| FieldLaws.TransitionPreviewNormalForm | pyatem/field.py:463-465 | every 4-byte payload re-encodes to `me` = byte 0, the `?` byte as 0 or 1, and cleared pad bytes |
| FieldLaws.EncodeTransitionPosition | pyatem/field.py:498 | the record is laid out in the 8 bytes `>B ? B x H 2x` needs |
| FieldLaws.TransitionPositionRoundTrip | pyatem/field.py:496-499 | a position that is a multiple of 1/9999 decodes back exactly |
| FieldLaws.TransitionPositionPrecision | pyatem/field.py:499 | any position in range decodes back to within 1/9999 below itself |
| FieldLaws.TransitionPositionHalf | pyatem/field.py:499 | a half-way position decodes back to within 1/9999 below one half |
| FieldLaws.TransitionPositionPadding | pyatem/field.py:498 | payloads that differ only in pad bytes 3, 6 and 7 decode alike |
| FieldLaws.TransitionPositionNormalForm | pyatem/field.py:496-499 | every 8-byte payload decodes to a position on the 1/9999 grid, and re-encodes to itself with the pad bytes cleared and the `?` byte as 0 or 1 |
| FieldLaws.EncodeTallyIndex | pyatem/field.py:524-533 | a tally list is laid out as its count and then one byte per light |
| FieldLaws.TallyIndexRoundTrip | pyatem/field.py:524-533 | decoding an encoded tally list gives it back |
| FieldLaws.TallyIndexTrailing | pyatem/field.py:524-533 | bytes after the last light do not change the decoded tally list |
| FieldLaws.TallyIndexExample | pyatem/field.py:529-533 | bytes [0,3,1,2,3] decode to program only, preview only, and both |
| FieldLaws.TallySourceKeys | pyatem/field.py:561-566 | a source is a key of the decoded dictionary exactly when one of the `num` triples names it |
| FieldLaws.TallySourceLastWins | pyatem/field.py:564-565 | a source keeps the tally bits of its last triple |
| FieldLaws.TallySourceTrailing | pyatem/field.py:557-566 | bytes after the last triple do not change the decoded dictionary |
| FieldLaws.TallySourceEntriesExtend | pyatem/field.py:561-566 | the triples read from a buffer are the same when more bytes follow the last triple read |
| FieldLaws.EncodeKeyOnAir | pyatem/field.py:594 | the record is laid out in the 4 bytes `>BB?x` needs |
| FieldLaws.KeyOnAirRoundTrip | pyatem/field.py:592-594 | decoding an encoded record gives it back |
| FieldLaws.KeyOnAirPadding | pyatem/field.py:594 | payloads that differ only in pad byte 3 decode alike |
| FieldLaws.KeyOnAirNormalForm | pyatem/field.py:592-594 | every 4-byte payload re-encodes to `me` and `keyer` from bytes 0 and 1, the `?` byte as 0 or 1, and a cleared pad byte |
| FieldLaws.EncodeFadeToBlackState | pyatem/field.py:659 | the record is laid out in the 4 bytes `>B??B` needs |
| FieldLaws.FadeToBlackStateRoundTrip | pyatem/field.py:657-659 | decoding an encoded record gives it back |
| FieldLaws.FadeToBlackStateNormalForm | pyatem/field.py:657-659 | every 4-byte payload re-encodes to itself with both `?` bytes written as 0 or 1 |
| FieldLaws.EncodeColorGenerator | pyatem/field.py:623 | the record is laid out in the 8 bytes `>Bx 3H` needs |
| FieldLaws.ColorGeneratorRoundTrip | pyatem/field.py:621-626 | hue on a 1/10 grid and saturation and luma on a 1/1000 grid decode back exactly |
| FieldLaws.ColorGeneratorPadding | pyatem/field.py:623 | payloads that differ only in pad byte 1 decode alike |
| FieldLaws.ColorGeneratorNormalForm | pyatem/field.py:621-626 | every 8-byte payload decodes to values on the 1/10 and 1/1000 grids and re-encodes to itself with pad byte 1 cleared |
| FieldLaws.ColorGeneratorExample | pyatem/field.py:624-626 | wire values 1800, 500 and 500 decode to hue 180.0, saturation 0.5 and luma 0.5 |
| FieldLaws.EncodeMediaplayerFileInfo | pyatem/field.py:693-697 | a file-info record takes 23 header bytes, one length byte and then the name |
| FieldLaws.MediaplayerFileInfoRoundTrip | pyatem/field.py:693-697 | a record whose hash has 16 bytes and whose name is shorter than 256 bytes decodes back to itself |
| FieldLaws.MediaplayerFileInfoPadding | pyatem/field.py:696 | payloads that differ only in pad bytes 1, 21 and 22 decode alike |
| FieldLaws.MediaplayerFileInfoShortName | pyatem/field.py:695-697 | a length byte claiming five characters when only three follow yields those three |
| ConverterLaws.FieldNamesUnique | pyatem/converters/converter.py:9-87 | no two settings of any profile share a name |
| ConverterLaws.BiDirectional12GNamesUnique | pyatem/converters/converter.py:9-39 | the eleven settings of the 12G profile have eleven different names |
| ConverterLaws.BiDirectional12GNameRow | pyatem/converters/converter.py:9-39 | each setting of the 12G profile is named differently from every setting after it |
| ConverterLaws.SdiHdmi3GNamesUnique | pyatem/converters/converter.py:48-67 | the six settings of the SDI to HDMI 3G profile have six different names |
| ConverterLaws.HdmiSdi3GMappingsInjective | pyatem/converters/converter.py:78-86 | every mapping of the HDMI to SDI 3G profile gives different codes different texts |
| ConverterLaws.MappingsAreInjective | pyatem/converters/converter.py:9-87 | in every mapping of every profile, no two raw codes share a human text |
| ConverterLaws.BiDirectional12GMappingsInjective | pyatem/converters/converter.py:14-37 | every mapping of the 12G profile gives different codes different texts |
| ConverterLaws.BiDirectional12GMappingRow | pyatem/converters/converter.py:14-37 | the mapping of each 12G setting, where there is one, gives different codes different texts |
| ConverterLaws.SdiHdmi3GMappingsInjective | pyatem/converters/converter.py:50-66 | every mapping of the SDI to HDMI 3G profile gives different codes different texts |
| ConverterLaws.MappedFieldsFitTheirWidth | pyatem/converters/converter.py:9-87 | every mapped setting is an `int` whose codes are 0..0xff; in a `wValue` profile it is also one byte wide |
| ConverterLaws.BiDirectional12GMappedFieldsFit | pyatem/converters/converter.py:9-39 | every mapped setting of the 12G profile is an `int` whose codes are 0..0xff |
| ConverterLaws.BiDirectional12GMappedRow | pyatem/converters/converter.py:10-38 | each mapped 12G setting is an `int` whose codes are 0..0xff |
| ConverterLaws.SdiHdmi3GMappedFieldsFit | pyatem/converters/converter.py:48-67 | every mapped setting of the SDI to HDMI 3G profile is an `int` one byte wide with codes in 0..0xff |
| ConverterLaws.HdmiSdi3GMappedFieldsFit | pyatem/converters/converter.py:76-87 | every mapped setting of the HDMI to SDI 3G profile is an `int` one byte wide with codes in 0..0xff |
| ConverterLaws.OffsetRangesDisjoint | pyatem/converters/converter.py:48-87 | no byte of the parameter block belongs to two settings of a profile |
| ConverterLaws.SdiHdmi3GRangesDisjoint | pyatem/converters/converter.py:48-67 | the byte ranges of the six SDI to HDMI 3G settings do not overlap |
| ConverterLaws.HdmiSdi3GRangesDisjoint | pyatem/converters/converter.py:76-87 | the byte ranges of the four HDMI to SDI 3G settings do not overlap |
| ConverterLaws.NameFieldIsDeviceNameOffset | pyatem/converters/converter.py:42-87 | the label profile has no `NAME_FIELD`; the two `wValue` profiles have 0x00C0, which is where their 64-byte `DeviceName` string sits |
| ConverterLaws.AddressingFollowsProtocol | pyatem/converters/converter.py:4-87 | the label profile locates every setting by label, and the `wValue` profiles locate every setting by offset |
| ConverterLaws.BiDirectional12GByLabel | pyatem/converters/converter.py:4-39 | the label profile locates every one of its settings by label |
| ConverterLaws.ReadOnlyAndSystemFields | pyatem/converters/converter.py:9-87 | the read-only settings are exactly BuildId, ReleaseVersion and LutName for the 12G, and LutName for each 3G; every system setting is in category Device |
| ConverterLaws.BiDirectional12GReadOnly | pyatem/converters/converter.py:10-38 | the read-only 12G settings are exactly BuildId, ReleaseVersion and LutName |
| ConverterLaws.BiDirectional12GSystemFields | pyatem/converters/converter.py:10-12 | every system setting of the 12G profile is in category Device |
| ConverterLaws.SdiHdmi3GReadOnly | pyatem/converters/converter.py:48-67 | LutName is the only read-only SDI to HDMI 3G setting |
| ConverterLaws.HdmiSdi3GReadOnly | pyatem/converters/converter.py:76-87 | LutName is the only read-only HDMI to SDI 3G setting |
| ConverterLaws.ProfilesWellFormed | pyatem/converters/converter.py:4-87 | all three profiles satisfy every invariant above together |
| ConverterLaws.BiDirectional12GWellFormed | pyatem/converters/converter.py:4-39 | the 12G profile meets every table invariant: unique names, injective one-byte-coded mappings, addressing by label, read-only and system settings as listed |
| ConverterLaws.SdiHdmi3GWellFormed | pyatem/converters/converter.py:42-67 | the SDI to HDMI 3G profile meets every table invariant, including disjoint ranges and `NAME_FIELD` at its DeviceName |
| ConverterLaws.HdmiSdi3GWellFormed | pyatem/converters/converter.py:70-87 | the HDMI to SDI 3G profile meets every table invariant, including disjoint ranges and `NAME_FIELD` at its DeviceName |
| ConverterLaws.SharedNamesAgreeAcrossProfiles | pyatem/converters/converter.py:9-87 | a setting name shared by two profiles keeps its category and label, though "Normal levels" is code 0x00 in one profile and 0x01 in another |
| ConverterLaws.SharedNamesAgreeBiDirectionalSdiHdmi | pyatem/converters/converter.py:9-67 | the 12G and SDI to HDMI 3G profiles agree on the category and label of every shared name |
| ConverterLaws.BiDirectionalRowAgreesSdiHdmi | pyatem/converters/converter.py:9-67 | each 12G setting has the category and label of the SDI to HDMI 3G setting of the same name, if there is one |
| ConverterLaws.SharedNamesAgreeBiDirectionalHdmiSdi | pyatem/converters/converter.py:9-87 | the 12G and HDMI to SDI 3G profiles agree on the category and label of every shared name |
| ConverterLaws.BiDirectionalRowAgreesHdmiSdi | pyatem/converters/converter.py:9-87 | each 12G setting has the category and label of the HDMI to SDI 3G setting of the same name, if there is one |
| ConverterLaws.SharedNamesAgreeSdiHdmiHdmiSdi | pyatem/converters/converter.py:48-87 | the two 3G profiles agree on the category and label of every shared name |
| ConverterLaws.ProductIdIsNotAKey | pyatem/converters/converter.py:42-74 | the two 3G profiles share product id 0xBE90 but are different profiles |
| ConverterLaws.ReverseLookup | pyatem/converters/converter.py:14-21 | looking up a human text finds a code that maps to it, or reports that no code does |
| ConverterLaws.ReverseLookupInverts | pyatem/converters/converter.py:14-21 | with an injective mapping, looking up a code's text leads back to that code |
| ConverterLaws.ProfileMappingsReversible | pyatem/converters/converter.py:9-87 | in every profile's mappings, a code's text leads back to that code |
| ConverterLaws.Slice | pyatem/converters/converter.py:49 | the bytes of a setting in the parameter block are exactly its width |
| ConverterLaws.Patch | pyatem/converters/converter.py:49 | writing a setting into the parameter block keeps the block's length |
| ConverterLaws.PatchIsLocal | pyatem/converters/converter.py:48-67 | when ranges are disjoint, writing one setting sets that setting's bytes and leaves every other setting's bytes as they were |

## Left out

- Record tags, the tag-to-class registry and the dispatch of a received packet to a decoder are not in `field.py` and are not part of this model.
- The `raw` attribute every field object keeps is the decoder's input itself. The records leave it out, so two payloads that differ only in pad bytes give equal records.
- `_get_string` ends with `.decode()`, which is UTF-8 decoding and may raise. The model keeps the bytes before the first NUL and does not model decoding or its error.
- `ColorGeneratorField.get_rgb` converts through `colorsys` in floating point. It is left out because it is float arithmetic.
- The `__repr__` methods are left out; they are display only.
- Python floats are binary64. The model divides exactly, as `real`. So `position`, `hue`, `saturation` and `luma` are the exact quotients, not their nearest doubles.
- The frame rates in the mode table are Python numbers such as 59.94 and 50. The model stores them in hundredths of a hertz and prints them as Python prints the originals. It does not model float formatting in general.
- A `struct.error` carries a message. The model keeps only the kind of error and the sizes and offsets in it, not the message text.
- Field.DecodeMediaplayerFileInfo: a payload of exactly 23 bytes builds the format `... 0p`. The model chooses `Success` with an empty name there. CPython's `p` unpacking takes the length as min(length byte, size - 1). Unless the interpreter checks for size 0 first, that is -1, and `PyBytes_FromStringAndSize` then raises `SystemError`. The model does not promise that failure. Payloads under 23 bytes build a negative count, which `struct` rejects; the model reports that as `BadFormat`.
- Struct.PascalString: a zero-width `0p` field yields the empty string by the model's choice, for the same reason; it does not model the `SystemError` described above.
- `Field` and `ValueField` are defined in `pyatem/converters/protocol.py`, which is not part of this model. The model assumes their defaults are `sys=False`, `ro=False` and `mapping=None`. It also assumes a `ValueField` is never a system setting.
- The read and write operations of the label and `wValue` converters (`LabelProtoConverter`, `WValueProtoConverter`, USB transfers) are in `protocol.py` and are not part of this model. `ConverterLaws.Slice` and `ConverterLaws.Patch` model only the byte layout those operations rely on.
- `FieldLaws.Quantize` and the `FieldLaws.Encode…` functions are the model's own inverses of the decoders. They have no counterpart in the source.

## Findings

| source | as written | input that shows it | evidently intended | confidence | as-written member | corrected member |
|---|---|---|---|---|---|---|
| pyatem/field.py:187-194 | `__init__` sets `resolution` only for codes in the table, yet `get_label` tests `self.resolution is None`, so for any other code it raises `AttributeError` | payload [18, 0, 0, 0] decodes, and `get_label()` then fails | the `unknown [<code>]` label that `get_label` is written to return | high, read from the code; not executed | VideoModes.LabelAsWritten | VideoModes.Label |

`FieldLaws.VideoModeLabelAsWrittenFails` shows the as-written failure on
that payload. `FieldLaws.VideoModeUnknown` proves that the corrected label
is `unknown [<code>]` for every code outside the table.

=== FILE: converter.dfy ===
/** The device-setting tables of the in-line Micro Converter boxes
    (`converters/converter.py`): each product profile lists its settings as
    immutable descriptors. The label-addressed profile reaches a setting
    through its (category, label) text; the two offset-addressed (`wValue`)
    profiles place each setting at a byte offset and width inside the flat
    parameter block. */
module Converter {
  import opened Struct

  /** The Python type a setting is read as: `str` or `int`. */
  datatype ValueType = Str | Int

  /** How a setting is found on the device. */
  datatype Location =
      /** By its (category, label) text; no fixed place. */
    | ByLabel
      /** The `width` bytes at `offset` in the parameter block. */
    | ByOffset(offset: nat, width: nat)

  /** One setting: stable name, where it lives, value type, category and
      display label, whether it is a system setting (`sys`) or read-only
      (`ro`), and the table from raw code to human text, if any. */
  datatype Descriptor = Descriptor(
    name: string,
    location: Location,
    valueType: ValueType,
    category: string,
    labelText: string,
    sys: bool,
    ro: bool,
    mapping: Option<map<int, string>>)

  /** A `Field(...)` of the label-addressed protocol. */
  function LabelField(name: string, valueType: ValueType, category: string, labelText: string,
                      sys: bool := false, ro: bool := false,
                      mapping: Option<map<int, string>> := None): (d: Descriptor)
    ensures d.location.ByLabel?
    ensures d.name == name && d.category == category && d.labelText == labelText
  {
    Descriptor(name, ByLabel, valueType, category, labelText, sys, ro, mapping)
  }

  /** A `ValueField(...)` of the offset-addressed protocol. */
  function ValueField(name: string, offset: nat, width: nat, valueType: ValueType,
                      category: string, labelText: string, ro: bool := false,
                      mapping: Option<map<int, string>> := None): (d: Descriptor)
    ensures d.location == ByOffset(offset, width) && !d.sys
    ensures d.name == name && d.category == category && d.labelText == labelText
  {
    Descriptor(name, ByOffset(offset, width), valueType, category, labelText, false, ro, mapping)
  }

  /** `PROTOCOL`: `"label"` or `"wValue"`. */
  datatype Protocol = LabelProtocol | WValueProtocol

  /** One converter product: `PRODUCT`, `NAME`, `PROTOCOL`, `NAME_FIELD` (for
      the offset-addressed profiles) and `FIELDS`. */
  datatype Profile = Profile(
    product: nat,
    name: string,
    protocol: Protocol,
    nameField: Option<nat>,
    fields: seq<Descriptor>)

  const MicroConverterBiDirectional12G: Profile := Profile(
    0xbe89,
    "Blackmagic design Micro Converter BiDirectional SDI/HDMI 12G",
    LabelProtocol,
    None,
    [
      LabelField("DeviceName", Str, "Device", "Name", sys := true),
      LabelField("BuildId", Str, "Device", "Build ID", sys := true, ro := true),
      LabelField("ReleaseVersion", Str, "Device", "Software", sys := true, ro := true),
      LabelField("AtemId", Int, "SDI Camera Control", "ATEM Camera ID"),
      LabelField("SdiLevelAEnable", Int, "SDI Output", "3G SDI Output",
                 mapping := Some(map[0xff := "Level A", 0x00 := "Level B"])),
      LabelField("HdmiClampEnable", Int, "HDMI Output", "Clip signal to",
                 mapping := Some(map[0x00 := "Normal levels (16 - 235)", 0xff := "Illegal levels (0 - 255)"])),
      LabelField("HdmiTxCh34Swap", Int, "HDMI Audio", "For 5.1 surround use",
                 mapping := Some(map[0x00 := "SMPTE standard", 0xff := "Consumer standard"])),
      LabelField("LutSelection", Int, "LUTs", "Lut Selection",
                 mapping := Some(map[0x00 := "False", 0xff := "True"])),
      LabelField("LutSdiOutEnable", Int, "LUTs", "SDI Out",
                 mapping := Some(map[0x00 := "False", 0xff := "True"])),
      LabelField("LutHdmiOutEnable", Int, "LUTs", "HDMI Out",
                 mapping := Some(map[0x00 := "False", 0xff := "True"])),
      LabelField("LutName", Str, "LUTs", "LUT name", ro := true)
    ])

  const MicroConverterSdiHdmi3G: Profile := Profile(
    0xBE90,
    "Blackmagic design Micro Converter SDI to HDMI 3G",
    WValueProtocol,
    Some(0x00C0),
    [
      ValueField("DeviceName", 0x00c0, 64, Str, "Device", "Name"),
      ValueField("HdmiClampEnable", 0x0100, 1, Int, "HDMI Output", "Clip signal to",
                 mapping := Some(map[0x01 := "Normal levels (16 - 235)", 0x00 := "Illegal levels (0 - 255)"])),
      ValueField("HdmiTxCh34Swap", 0x0102, 1, Int, "HDMI Audio", "For 5.1 surround use",
                 mapping := Some(map[0x00 := "SMPTE standard", 0x01 := "Consumer standard"])),
      ValueField("LutName", 0x0310, 64, Str, "LUTs", "LUT name", ro := true),
      ValueField("LutEnable", 0x0300, 1, Int, "LUTs", "Enable 3D LUT",
                 mapping := Some(map[0x00 := "Enable", 0xff := "Disable"])),
      ValueField("LutLoop", 0x0301, 1, Int, "LUTs", "LUT on loop output",
                 mapping := Some(map[0x01 := "Enable", 0x00 := "Disable"]))
    ])

  const MicroConverterHdmiSdi3G: Profile := Profile(
    0xBE90,
    "Blackmagic design Micro Converter HDMI to SDI 3G",
    WValueProtocol,
    Some(0x00C0),
    [
      ValueField("DeviceName", 0x00c0, 64, Str, "Device", "Name"),
      ValueField("SdiLevelAEnable", 0x0200, 1, Int, "SDI Output", "3G SDI Output",
                 mapping := Some(map[0x01 := "Level A", 0x00 := "Level B"])),
      ValueField("LutName", 0x0310, 64, Str, "LUTs", "LUT name", ro := true),
      ValueField("LutEnable", 0x0300, 1, Int, "LUTs", "Enable 3D LUT",
                 mapping := Some(map[0x00 := "Enable", 0xff := "Disable"]))
    ])

  const Profiles: seq<Profile> := [MicroConverterBiDirectional12G, MicroConverterSdiHdmi3G, MicroConverterHdmiSdi3G]
}

=== FILE: converter_laws.dfy ===
/** The invariants of the converter setting tables that generic configuration
    tooling relies on, proved of the three profiles, and what they buy: a
    value mapping that is injective can be read backwards, and settings whose
    byte ranges are disjoint can be patched one at a time without disturbing
    each other. */
module ConverterLaws {
  import opened Struct
  import opened Converter

  // ---------------------------------------------------------------------------
  // The invariants

  /** No two settings of a profile share a name. */
  ghost predicate UniqueNames(fs: seq<Descriptor>) {
    forall i, j :: 0 <= i < j < |fs| ==> fs[i].name != fs[j].name
  }

  /** No two raw codes share a human label. */
  ghost predicate Injective(m: map<int, string>) {
    forall a, b :: a in m && b in m && m[a] == m[b] ==> a == b
  }

  ghost predicate MappingsInjective(fs: seq<Descriptor>) {
    forall i :: 0 <= i < |fs| && fs[i].mapping.Some? ==> Injective(fs[i].mapping.value)
  }

  /** Every mapped setting is an `int` setting whose codes fit in one byte;
      in the offset-addressed protocol it is also one byte wide. */
  ghost predicate MappedFieldsFit(fs: seq<Descriptor>) {
    forall i :: 0 <= i < |fs| && fs[i].mapping.Some? ==>
      && fs[i].valueType == Int
      && (forall c :: c in fs[i].mapping.value ==> 0 <= c <= 0xff)
      && (fs[i].location.ByOffset? ==> fs[i].location.width == 1)
  }

  /** No byte of the parameter block belongs to two settings. */
  ghost predicate DisjointRanges(fs: seq<Descriptor>) {
    forall i, j :: 0 <= i < j < |fs| && fs[i].location.ByOffset? && fs[j].location.ByOffset? ==>
      || fs[i].location.offset + fs[i].location.width <= fs[j].location.offset
      || fs[j].location.offset + fs[j].location.width <= fs[i].location.offset
  }

  /** `NAME_FIELD`, when a profile has one, is the offset of its `DeviceName`
      setting, a 64-byte text field. */
  ghost predicate NameFieldIsDeviceName(p: Profile) {
    p.nameField.Some? ==>
      exists i :: 0 <= i < |p.fields| && p.fields[i].name == "DeviceName"
                  && p.fields[i].location == ByOffset(p.nameField.value, 64)
                  && p.fields[i].valueType == Str
  }

  /** The label protocol locates every setting by label, the `wValue`
      protocol every setting by offset. */
  ghost predicate AddressingMatchesProtocol(p: Profile) {
    forall i :: 0 <= i < |p.fields| ==>
      (p.fields[i].location.ByLabel? <==> p.protocol == LabelProtocol)
  }

  /** System settings belong to the `Device` category. */
  ghost predicate SystemFieldsInDevice(fs: seq<Descriptor>) {
    forall i :: 0 <= i < |fs| && fs[i].sys ==> fs[i].category == "Device"
  }

  /** The names of a profile's read-only settings. */
  ghost function ReadOnlyNames(fs: seq<Descriptor>): set<string> {
    set i | 0 <= i < |fs| && fs[i].ro :: fs[i].name
  }

  ghost predicate WellFormed(p: Profile) {
    && UniqueNames(p.fields)
    && MappingsInjective(p.fields)
    && MappedFieldsFit(p.fields)
    && DisjointRanges(p.fields)
    && NameFieldIsDeviceName(p)
    && AddressingMatchesProtocol(p)
    && SystemFieldsInDevice(p.fields)
  }

  // ---------------------------------------------------------------------------
  // The three profiles satisfy them

  /** Field names are unique within each profile. */
  lemma FieldNamesUnique()
    ensures UniqueNames(MicroConverterBiDirectional12G.fields)
    ensures UniqueNames(MicroConverterSdiHdmi3G.fields)
    ensures UniqueNames(MicroConverterHdmiSdi3G.fields)
  {
    BiDirectional12GNamesUnique();
    SdiHdmi3GNamesUnique();
  }

  lemma BiDirectional12GNamesUnique()
    ensures UniqueNames(MicroConverterBiDirectional12G.fields)
  {
    var fs := MicroConverterBiDirectional12G.fields;
    forall i, j | 0 <= i < j < |fs|
      ensures fs[i].name != fs[j].name
    {
      BiDirectional12GNameRow(i);
    }
  }

  /** Setting `i` of the label profile is named differently from every
      setting after it. */
  lemma BiDirectional12GNameRow(i: int)
    requires 0 <= i < |MicroConverterBiDirectional12G.fields|
    ensures forall j :: i < j < |MicroConverterBiDirectional12G.fields| ==>
              MicroConverterBiDirectional12G.fields[i].name != MicroConverterBiDirectional12G.fields[j].name
  {
  }

  lemma SdiHdmi3GNamesUnique()
    ensures UniqueNames(MicroConverterSdiHdmi3G.fields)
  {
  }

  /** Every value mapping is injective. */
  lemma MappingsAreInjective()
    ensures MappingsInjective(MicroConverterBiDirectional12G.fields)
    ensures MappingsInjective(MicroConverterSdiHdmi3G.fields)
    ensures MappingsInjective(MicroConverterHdmiSdi3G.fields)
  {
    BiDirectional12GMappingsInjective();
    SdiHdmi3GMappingsInjective();
    HdmiSdi3GMappingsInjective();
  }

  lemma BiDirectional12GMappingsInjective()
    ensures MappingsInjective(MicroConverterBiDirectional12G.fields)
  {
    var fs := MicroConverterBiDirectional12G.fields;
    forall i | 0 <= i < |fs| && fs[i].mapping.Some?
      ensures Injective(fs[i].mapping.value)
    {
      BiDirectional12GMappingRow(i);
    }
  }

  /** The mapping of setting `i` of the label profile, if any, is injective. */
  lemma BiDirectional12GMappingRow(i: int)
    requires 0 <= i < |MicroConverterBiDirectional12G.fields|
    ensures MicroConverterBiDirectional12G.fields[i].mapping.Some? ==>
              Injective(MicroConverterBiDirectional12G.fields[i].mapping.value)
  {
  }

  lemma SdiHdmi3GMappingsInjective()
    ensures MappingsInjective(MicroConverterSdiHdmi3G.fields)
  {
  }

  lemma HdmiSdi3GMappingsInjective()
    ensures MappingsInjective(MicroConverterHdmiSdi3G.fields)
  {
  }

  /** Mapped settings are `int` settings whose codes fit in one byte, and
      they are one byte wide where they have an offset. */
  lemma MappedFieldsFitTheirWidth()
    ensures MappedFieldsFit(MicroConverterBiDirectional12G.fields)
    ensures MappedFieldsFit(MicroConverterSdiHdmi3G.fields)
    ensures MappedFieldsFit(MicroConverterHdmiSdi3G.fields)
  {
    BiDirectional12GMappedFieldsFit();
    SdiHdmi3GMappedFieldsFit();
    HdmiSdi3GMappedFieldsFit();
  }

  lemma BiDirectional12GMappedFieldsFit()
    ensures MappedFieldsFit(MicroConverterBiDirectional12G.fields)
  {
    var fs := MicroConverterBiDirectional12G.fields;
    forall i | 0 <= i < |fs| && fs[i].mapping.Some?
      ensures fs[i].valueType == Int && forall c :: c in fs[i].mapping.value ==> 0 <= c <= 0xff
    {
      BiDirectional12GMappedRow(i);
    }
  }

  /** Setting `i` of the label profile, if mapped, is an `int` with one-byte codes. */
  lemma BiDirectional12GMappedRow(i: int)
    requires 0 <= i < |MicroConverterBiDirectional12G.fields|
    ensures MicroConverterBiDirectional12G.fields[i].mapping.Some? ==>
              && MicroConverterBiDirectional12G.fields[i].valueType == Int
              && forall c :: c in MicroConverterBiDirectional12G.fields[i].mapping.value ==> 0 <= c <= 0xff
  {
  }

  lemma SdiHdmi3GMappedFieldsFit()
    ensures MappedFieldsFit(MicroConverterSdiHdmi3G.fields)
  {
  }

  lemma HdmiSdi3GMappedFieldsFit()
    ensures MappedFieldsFit(MicroConverterHdmiSdi3G.fields)
  {
  }

  /** The offset-addressed settings of each profile occupy disjoint byte ranges. */
  lemma OffsetRangesDisjoint()
    ensures DisjointRanges(MicroConverterBiDirectional12G.fields)
    ensures DisjointRanges(MicroConverterSdiHdmi3G.fields)
    ensures DisjointRanges(MicroConverterHdmiSdi3G.fields)
  {
    AddressingFollowsProtocol();
    SdiHdmi3GRangesDisjoint();
    HdmiSdi3GRangesDisjoint();
  }

  lemma SdiHdmi3GRangesDisjoint()
    ensures DisjointRanges(MicroConverterSdiHdmi3G.fields)
  {
  }

  lemma HdmiSdi3GRangesDisjoint()
    ensures DisjointRanges(MicroConverterHdmiSdi3G.fields)
  {
  }

  /** `NAME_FIELD` is 0x00C0 in both offset-addressed profiles, the offset of
      their 64-byte `DeviceName` text setting; the label profile has none. */
  lemma NameFieldIsDeviceNameOffset()
    ensures MicroConverterBiDirectional12G.nameField == None
    ensures MicroConverterSdiHdmi3G.nameField == Some(0x00C0)
    ensures MicroConverterHdmiSdi3G.nameField == Some(0x00C0)
    ensures NameFieldIsDeviceName(MicroConverterSdiHdmi3G)
    ensures NameFieldIsDeviceName(MicroConverterHdmiSdi3G)
  {
    assert MicroConverterSdiHdmi3G.fields[0].name == "DeviceName";
    assert MicroConverterHdmiSdi3G.fields[0].name == "DeviceName";
  }

  /** Each profile locates its settings the way its protocol does. */
  lemma AddressingFollowsProtocol()
    ensures AddressingMatchesProtocol(MicroConverterBiDirectional12G)
    ensures AddressingMatchesProtocol(MicroConverterSdiHdmi3G)
    ensures AddressingMatchesProtocol(MicroConverterHdmiSdi3G)
  {
    BiDirectional12GByLabel();
  }

  lemma BiDirectional12GByLabel()
    ensures AddressingMatchesProtocol(MicroConverterBiDirectional12G)
  {
  }

  /** The read-only settings are exactly `BuildId`, `ReleaseVersion` and
      `LutName` in the label profile and `LutName` in the others; every
      system setting is in the `Device` category. */
  lemma ReadOnlyAndSystemFields()
    ensures ReadOnlyNames(MicroConverterBiDirectional12G.fields) == {"BuildId", "ReleaseVersion", "LutName"}
    ensures ReadOnlyNames(MicroConverterSdiHdmi3G.fields) == {"LutName"}
    ensures ReadOnlyNames(MicroConverterHdmiSdi3G.fields) == {"LutName"}
    ensures SystemFieldsInDevice(MicroConverterBiDirectional12G.fields)
    ensures SystemFieldsInDevice(MicroConverterSdiHdmi3G.fields)
    ensures SystemFieldsInDevice(MicroConverterHdmiSdi3G.fields)
  {
    BiDirectional12GReadOnly();
    BiDirectional12GSystemFields();
    SdiHdmi3GReadOnly();
    HdmiSdi3GReadOnly();
  }

  lemma SdiHdmi3GReadOnly()
    ensures ReadOnlyNames(MicroConverterSdiHdmi3G.fields) == {"LutName"}
  {
    assert MicroConverterSdiHdmi3G.fields[3].ro;
  }

  lemma HdmiSdi3GReadOnly()
    ensures ReadOnlyNames(MicroConverterHdmiSdi3G.fields) == {"LutName"}
  {
    assert MicroConverterHdmiSdi3G.fields[2].ro;
  }

  lemma BiDirectional12GReadOnly()
    ensures ReadOnlyNames(MicroConverterBiDirectional12G.fields) == {"BuildId", "ReleaseVersion", "LutName"}
  {
    assert MicroConverterBiDirectional12G.fields[1].ro;
    assert MicroConverterBiDirectional12G.fields[2].ro;
    assert MicroConverterBiDirectional12G.fields[10].ro;
  }

  lemma BiDirectional12GSystemFields()
    ensures SystemFieldsInDevice(MicroConverterBiDirectional12G.fields)
  {
  }

  /** All three profiles are well formed. */
  lemma ProfilesWellFormed()
    ensures forall k :: 0 <= k < |Profiles| ==> WellFormed(Profiles[k])
  {
    BiDirectional12GWellFormed();
    SdiHdmi3GWellFormed();
    HdmiSdi3GWellFormed();
  }

  lemma BiDirectional12GWellFormed()
    ensures WellFormed(MicroConverterBiDirectional12G)
  {
    FieldNamesUnique();
    MappingsAreInjective();
    MappedFieldsFitTheirWidth();
    OffsetRangesDisjoint();
    AddressingFollowsProtocol();
    ReadOnlyAndSystemFields();
  }

  lemma SdiHdmi3GWellFormed()
    ensures WellFormed(MicroConverterSdiHdmi3G)
  {
    FieldNamesUnique();
    MappingsAreInjective();
    MappedFieldsFitTheirWidth();
    OffsetRangesDisjoint();
    NameFieldIsDeviceNameOffset();
    AddressingFollowsProtocol();
    ReadOnlyAndSystemFields();
  }

  lemma HdmiSdi3GWellFormed()
    ensures WellFormed(MicroConverterHdmiSdi3G)
  {
    FieldNamesUnique();
    MappingsAreInjective();
    MappedFieldsFitTheirWidth();
    OffsetRangesDisjoint();
    NameFieldIsDeviceNameOffset();
    AddressingFollowsProtocol();
    ReadOnlyAndSystemFields();
  }

  /** A setting that appears under the same name in two profiles has the same
      category and label in both, though its raw codes may differ. */
  ghost predicate SharedNamesAgree(p: Profile, q: Profile) {
    forall i, j :: 0 <= i < |p.fields| && 0 <= j < |q.fields| && p.fields[i].name == q.fields[j].name ==>
      p.fields[i].category == q.fields[j].category && p.fields[i].labelText == q.fields[j].labelText
  }

  lemma SharedNamesAgreeAcrossProfiles()
    ensures SharedNamesAgree(MicroConverterBiDirectional12G, MicroConverterSdiHdmi3G)
    ensures SharedNamesAgree(MicroConverterBiDirectional12G, MicroConverterHdmiSdi3G)
    ensures SharedNamesAgree(MicroConverterSdiHdmi3G, MicroConverterHdmiSdi3G)
    ensures MicroConverterBiDirectional12G.fields[5].mapping.value[0x00] == "Normal levels (16 - 235)"
    ensures MicroConverterSdiHdmi3G.fields[1].mapping.value[0x01] == "Normal levels (16 - 235)"
  {
    SharedNamesAgreeBiDirectionalSdiHdmi();
    SharedNamesAgreeBiDirectionalHdmiSdi();
    SharedNamesAgreeSdiHdmiHdmiSdi();
  }

  lemma SharedNamesAgreeBiDirectionalSdiHdmi()
    ensures SharedNamesAgree(MicroConverterBiDirectional12G, MicroConverterSdiHdmi3G)
  {
    var p, q := MicroConverterBiDirectional12G, MicroConverterSdiHdmi3G;
    forall i, j | 0 <= i < |p.fields| && 0 <= j < |q.fields| && p.fields[i].name == q.fields[j].name
      ensures p.fields[i].category == q.fields[j].category && p.fields[i].labelText == q.fields[j].labelText
    {
      BiDirectionalRowAgreesSdiHdmi(i);
    }
  }

  /** Setting `i` of the label profile agrees with the SDI to HDMI setting
      of the same name, if there is one. */
  lemma BiDirectionalRowAgreesSdiHdmi(i: int)
    requires 0 <= i < |MicroConverterBiDirectional12G.fields|
    ensures forall j :: 0 <= j < |MicroConverterSdiHdmi3G.fields| &&
                        MicroConverterBiDirectional12G.fields[i].name == MicroConverterSdiHdmi3G.fields[j].name ==>
              && MicroConverterBiDirectional12G.fields[i].category == MicroConverterSdiHdmi3G.fields[j].category
              && MicroConverterBiDirectional12G.fields[i].labelText == MicroConverterSdiHdmi3G.fields[j].labelText
  {
  }

  lemma SharedNamesAgreeBiDirectionalHdmiSdi()
    ensures SharedNamesAgree(MicroConverterBiDirectional12G, MicroConverterHdmiSdi3G)
  {
    var p, q := MicroConverterBiDirectional12G, MicroConverterHdmiSdi3G;
    forall i, j | 0 <= i < |p.fields| && 0 <= j < |q.fields| && p.fields[i].name == q.fields[j].name
      ensures p.fields[i].category == q.fields[j].category && p.fields[i].labelText == q.fields[j].labelText
    {
      BiDirectionalRowAgreesHdmiSdi(i);
    }
  }

  /** Setting `i` of the label profile agrees with the HDMI to SDI setting
      of the same name, if there is one. */
  lemma BiDirectionalRowAgreesHdmiSdi(i: int)
    requires 0 <= i < |MicroConverterBiDirectional12G.fields|
    ensures forall j :: 0 <= j < |MicroConverterHdmiSdi3G.fields| &&
                        MicroConverterBiDirectional12G.fields[i].name == MicroConverterHdmiSdi3G.fields[j].name ==>
              && MicroConverterBiDirectional12G.fields[i].category == MicroConverterHdmiSdi3G.fields[j].category
              && MicroConverterBiDirectional12G.fields[i].labelText == MicroConverterHdmiSdi3G.fields[j].labelText
  {
  }

  lemma SharedNamesAgreeSdiHdmiHdmiSdi()
    ensures SharedNamesAgree(MicroConverterSdiHdmi3G, MicroConverterHdmiSdi3G)
  {
  }

  /** The product id does not identify a profile: both 3G converters report
      0xBE90, and only the table chosen by the caller tells them apart. */
  lemma ProductIdIsNotAKey()
    ensures MicroConverterSdiHdmi3G.product == MicroConverterHdmiSdi3G.product == 0xBE90
    ensures MicroConverterSdiHdmi3G.name != MicroConverterHdmiSdi3G.name
    ensures MicroConverterSdiHdmi3G.fields != MicroConverterHdmiSdi3G.fields
  {
    assert |MicroConverterSdiHdmi3G.fields| != |MicroConverterHdmiSdi3G.fields|;
  }

  // ---------------------------------------------------------------------------
  // What the invariants buy

  /** The raw code whose human text is `text`, if any. */
  ghost function ReverseLookup(m: map<int, string>, text: string): (r: Option<int>)
    ensures r.Some? ==> r.value in m && m[r.value] == text
    ensures r.None? ==> forall c :: c in m ==> m[c] != text
  {
    if exists c :: c in m && m[c] == text then
      var c :| c in m && m[c] == text; Some(c)
    else None
  }

  /** With an injective mapping, reverse lookup undoes the mapping: the text
      of a code leads back to that code and no other. */
  lemma ReverseLookupInverts(m: map<int, string>, code: int)
    requires Injective(m) && code in m
    ensures ReverseLookup(m, m[code]) == Some(code)
  {
  }

  /** The human texts of every mapping in the three profiles lead back to
      their codes. */
  lemma ProfileMappingsReversible(p: Profile, i: int, code: int)
    requires p == MicroConverterBiDirectional12G || p == MicroConverterSdiHdmi3G || p == MicroConverterHdmiSdi3G
    requires 0 <= i < |p.fields| && p.fields[i].mapping.Some? && code in p.fields[i].mapping.value
    ensures ReverseLookup(p.fields[i].mapping.value, p.fields[i].mapping.value[code]) == Some(code)
  {
    MappingsAreInjective();
    ReverseLookupInverts(p.fields[i].mapping.value, code);
  }

  /** The bytes of an offset-addressed setting in a parameter block. */
  function Slice(block: seq<byte>, d: Descriptor): (s: seq<byte>)
    requires d.location.ByOffset? && d.location.offset + d.location.width <= |block|
    ensures |s| == d.location.width
  {
    block[d.location.offset..d.location.offset + d.location.width]
  }

  /** The block with the bytes of setting `d` replaced by `value`. */
  function Patch(block: seq<byte>, d: Descriptor, value: seq<byte>): (b: seq<byte>)
    requires d.location.ByOffset? && d.location.offset + d.location.width <= |block|
    requires |value| == d.location.width
    ensures |b| == |block|
  {
    block[..d.location.offset] + value + block[d.location.offset + d.location.width..]
  }

  /** Patching one setting of a profile with disjoint ranges sets that
      setting and leaves every other setting's bytes as they were. */
  lemma PatchIsLocal(fs: seq<Descriptor>, block: seq<byte>, i: int, j: int, value: seq<byte>)
    requires DisjointRanges(fs)
    requires 0 <= i < |fs| && 0 <= j < |fs| && i != j
    requires fs[i].location.ByOffset? && fs[i].location.offset + fs[i].location.width <= |block|
    requires fs[j].location.ByOffset? && fs[j].location.offset + fs[j].location.width <= |block|
    requires |value| == fs[i].location.width
    ensures Slice(Patch(block, fs[i], value), fs[i]) == value
    ensures Slice(Patch(block, fs[i], value), fs[j]) == Slice(block, fs[j])
  {
    var b := Patch(block, fs[i], value);
    var oi, wi := fs[i].location.offset, fs[i].location.width;
    var oj, wj := fs[j].location.offset, fs[j].location.width;
    assert oi + wi <= oj || oj + wj <= oi;
    forall k | oj <= k < oj + wj
      ensures b[k] == block[k]
    {
    }
  }
}

=== FILE: decimal.dfy ===
/** Decimal text of non-negative integers, as Python's `str.format` renders an
    `int`, with the parser that inverts it. */
module DecimalText {

  predicate IsDigit(c: char) {
    '0' <= c <= '9'
  }

  function DigitChar(d: nat): (c: char)
    requires d < 10
    ensures IsDigit(c)
  {
    ('0' as int + d) as char
  }

  function DigitValue(c: char): (d: nat)
    requires IsDigit(c)
    ensures d < 10
  {
    c as int - '0' as int
  }

  /** `'{}'.format(n)`: the base-ten digits of `n`, most significant first. */
  function Decimal(n: nat): (s: string)
    ensures |s| >= 1
    ensures forall i :: 0 <= i < |s| ==> IsDigit(s[i])
    ensures s[0] == '0' ==> n == 0
    ensures n < 10 <==> |s| == 1
  {
    if n < 10 then [DigitChar(n)] else Decimal(n / 10) + [DigitChar(n % 10)]
  }

  /** The value of a run of decimal digits. */
  function ParseDecimal(s: string): nat
    requires forall i :: 0 <= i < |s| ==> IsDigit(s[i])
  {
    if |s| == 0 then 0 else 10 * ParseDecimal(s[..|s| - 1]) + DigitValue(s[|s| - 1])
  }

  /** Rendering loses nothing: the digits parse back to the number. */
  lemma {:induction false} ParseDecimalRoundTrip(n: nat)
    ensures ParseDecimal(Decimal(n)) == n
  {
    var s := Decimal(n);
    if n >= 10 {
      ParseDecimalRoundTrip(n / 10);
      assert s[..|s| - 1] == Decimal(n / 10);
    }
  }

  /** Different numbers render differently. */
  lemma DecimalInjective(m: nat, n: nat)
    requires Decimal(m) == Decimal(n)
    ensures m == n
  {
    ParseDecimalRoundTrip(m);
    ParseDecimalRoundTrip(n);
  }
}

=== FILE: field.dfy ===
/** The mixer record decoders of `field.py`: one datatype per record and one
    decoder per record, each turning a record's payload into its named values
    (or into the error Python's `struct` raises for it). The payload itself,
    which every Python object also keeps as `raw`, is the decoder's input and
    is not repeated in the records. */
module Field {
  import opened Struct
  import opened FieldBase
  import opened VideoModes

  // ---------------------------------------------------------------------------
  // Flag groups read out of bitfields

  /** The layers a transition affects: bits 0..4 of a `TrSS` layer byte. */
  datatype Layers = Layers(bkgd: bool, key1: bool, key2: bool, key3: bool, key4: bool)

  function LayersOf(b: byte): Layers {
    Layers(Bit(b, 0), Bit(b, 1), Bit(b, 2), Bit(b, 3), Bit(b, 4))
  }

  /** Where an input may be routed: bits 0..4 of byte 34 of `InPr`. */
  datatype Availability = Availability(aux: bool, multiview: bool, supersourceArt: bool,
                                       supersourceBox: bool, keySource: bool)

  function AvailabilityOf(b: byte): Availability {
    Availability(Bit(b, 0), Bit(b, 1), Bit(b, 2), Bit(b, 3), Bit(b, 4))
  }

  /** Which M/E units an input may be routed to: bits 0..1 of byte 35 of `InPr`. */
  datatype MeAvailability = MeAvailability(me1: bool, me2: bool)

  function MeAvailabilityOf(b: byte): MeAvailability {
    MeAvailability(Bit(b, 0), Bit(b, 1))
  }

  /** One tally light: bit 0 is PROGRAM, bit 1 is PREVIEW. */
  datatype Tally = Tally(program: bool, preview: bool)

  function TallyOf(b: byte): Tally {
    Tally(Bit(b, 0), Bit(b, 1))
  }

  // ---------------------------------------------------------------------------
  // `_ver`: firmware version, format `>HH`

  datatype FirmwareVersion = FirmwareVersion(major: u16, minor: u16)

  function DecodeFirmwareVersion(p: seq<byte>): (r: Result<FirmwareVersion>)
    ensures r.Success? <==> |p| == 4
    ensures r.Failure? ==> r.error == WrongSize(4, |p|)
  {
    if |p| != 4 then Failure(WrongSize(4, |p|))
    else Success(FirmwareVersion(U16At(p, 0), U16At(p, 2)))
  }

  // ---------------------------------------------------------------------------
  // `_pin`: product name, NUL-terminated text filling the payload

  datatype ProductName = ProductName(name: seq<byte>)

  /** The whole payload is the text field; no length is checked. */
  function DecodeProductName(p: seq<byte>): (r: Result<ProductName>)
    ensures r.Success?
    ensures r.value.name <= p && NUL !in r.value.name
    ensures |r.value.name| < |p| ==> p[|r.value.name|] == NUL
  {
    Success(ProductName(CString(p)))
  }

  // ---------------------------------------------------------------------------
  // `_MeC`: M/E configuration, format `>2B2x`

  datatype MixerEffectConfig = MixerEffectConfig(me: byte, keyers: byte)

  function DecodeMixerEffectConfig(p: seq<byte>): (r: Result<MixerEffectConfig>)
    ensures r.Success? <==> |p| == 4
    ensures r.Failure? ==> r.error == WrongSize(4, |p|)
  {
    if |p| != 4 then Failure(WrongSize(4, |p|))
    else Success(MixerEffectConfig(p[0], p[1]))
  }

  // ---------------------------------------------------------------------------
  // `_mpl`: mediaplayer slot counts, format `>2B2x`

  datatype MediaplayerSlots = MediaplayerSlots(stills: byte, clips: byte)

  function DecodeMediaplayerSlots(p: seq<byte>): (r: Result<MediaplayerSlots>)
    ensures r.Success? <==> |p| == 4
    ensures r.Failure? ==> r.error == WrongSize(4, |p|)
  {
    if |p| != 4 then Failure(WrongSize(4, |p|))
    else Success(MediaplayerSlots(p[0], p[1]))
  }

  // ---------------------------------------------------------------------------
  // `VidM`: video mode, format `>1B3x`

  /** Every code decodes; a code outside the table just has no format. */
  function DecodeVideoMode(p: seq<byte>): (r: Result<VideoMode>)
    ensures r.Success? <==> |p| == 4
    ensures r.Failure? ==> r.error == WrongSize(4, |p|)
    ensures r.Success? ==> r.value.mode == p[0]
    ensures r.Success? ==> (r.value.format.Some? <==> p[0] <= 17 || p[0] == 26 || p[0] == 27)
  {
    if |p| != 4 then Failure(WrongSize(4, |p|))
    else Success(VideoMode(p[0], FormatOf(p[0])))
  }

  // ---------------------------------------------------------------------------
  // `InPr`: input properties, format `>H 20s 4s 10B`

  datatype InputProperties = InputProperties(
    index: u16,
    name: seq<byte>,
    shortName: seq<byte>,
    sourceCategory: byte,
    sourcePorts: byte,
    portType: byte,
    available: Availability,
    meAvailable: MeAvailability)

  const PORT_EXTERNAL: byte := 0
  const PORT_BLACK: byte := 1
  const PORT_BARS: byte := 2
  const PORT_COLOR: byte := 3
  const PORT_MEDIAPLAYER: byte := 4
  const PORT_MEDIAPLAYER_KEY: byte := 5
  const PORT_SUPERSOURCE: byte := 6
  const PORT_PASSTHROUGH: byte := 7
  const PORT_ME_OUTPUT: byte := 128
  const PORT_AUX_OUTPUT: byte := 129

  /** The ten trailing bytes 26..35 are `fields[3..12]`; of them the decoder
      keeps byte 26 (category), 29 (ports), 32 (port type) and the flag
      bytes 34 and 35. */
  function DecodeInputProperties(p: seq<byte>): (r: Result<InputProperties>)
    ensures r.Success? <==> |p| == 36
    ensures r.Failure? ==> r.error == WrongSize(36, |p|)
    ensures r.Success? ==> r.value.name <= p[2..22] && NUL !in r.value.name
    ensures r.Success? && |r.value.name| < 20 ==> p[2 + |r.value.name|] == NUL
    ensures r.Success? ==> r.value.shortName <= p[22..26] && NUL !in r.value.shortName
    ensures r.Success? && |r.value.shortName| < 4 ==> p[22 + |r.value.shortName|] == NUL
  {
    if |p| != 36 then Failure(WrongSize(36, |p|))
    else Success(InputProperties(
      U16At(p, 0),
      CString(p[2..22]),
      CString(p[22..26]),
      p[26],
      p[29],
      p[32],
      AvailabilityOf(p[34]),
      MeAvailabilityOf(p[35])))
  }

  // ---------------------------------------------------------------------------
  // `PrgI`: program bus source, format `>BxH`

  datatype ProgramBusInput = ProgramBusInput(me: byte, source: u16)

  function DecodeProgramBusInput(p: seq<byte>): (r: Result<ProgramBusInput>)
    ensures r.Success? <==> |p| == 4
    ensures r.Failure? ==> r.error == WrongSize(4, |p|)
  {
    if |p| != 4 then Failure(WrongSize(4, |p|))
    else Success(ProgramBusInput(p[0], U16At(p, 2)))
  }

  // ---------------------------------------------------------------------------
  // `PrvI`: preview bus source, format `>B x H B 3x`

  datatype PreviewBusInput = PreviewBusInput(me: byte, source: u16, inProgram: bool)

  /** `in_program` compares the byte with 1: only the value 1 means true. */
  function DecodePreviewBusInput(p: seq<byte>): (r: Result<PreviewBusInput>)
    ensures r.Success? <==> |p| == 8
    ensures r.Failure? ==> r.error == WrongSize(8, |p|)
    ensures r.Success? ==> (r.value.inProgram <==> p[4] == 1)
  {
    if |p| != 8 then Failure(WrongSize(8, |p|))
    else Success(PreviewBusInput(p[0], U16At(p, 2), p[4] == 1))
  }

  // ---------------------------------------------------------------------------
  // `TrSS`: transition settings, format `>B 2B 2B 3x`

  const STYLE_MIX: byte := 0
  const STYLE_DIP: byte := 1
  const STYLE_WIPE: byte := 2
  const STYLE_DVE: byte := 3
  const STYLE_STING: byte := 4

  datatype TransitionSettings = TransitionSettings(
    me: byte, style: byte, next: Layers, styleNext: byte, nextAfter: Layers)

  /** The code's format is eight bytes long, although the record's own
      layout table lists only five. */
  function DecodeTransitionSettings(p: seq<byte>): (r: Result<TransitionSettings>)
    ensures r.Success? <==> |p| == 8
    ensures r.Failure? ==> r.error == WrongSize(8, |p|)
  {
    if |p| != 8 then Failure(WrongSize(8, |p|))
    else Success(TransitionSettings(p[0], p[1], LayersOf(p[2]), p[3], LayersOf(p[4])))
  }

  // ---------------------------------------------------------------------------
  // `TsPr`: transition preview, format `>B ? 2x`

  datatype TransitionPreview = TransitionPreview(me: byte, enabled: bool)

  function DecodeTransitionPreview(p: seq<byte>): (r: Result<TransitionPreview>)
    ensures r.Success? <==> |p| == 4
    ensures r.Failure? ==> r.error == WrongSize(4, |p|)
    ensures r.Success? ==> (r.value.enabled <==> p[1] != 0)
  {
    if |p| != 4 then Failure(WrongSize(4, |p|))
    else Success(TransitionPreview(p[0], Truth(p[1])))
  }

  // ---------------------------------------------------------------------------
  // `TrPs`: transition position, format `>B ? B x H 2x`

  /** The scale of the T-bar position: the wire value 9999 is a finished transition. */
  const POSITION_SCALE: real := 9999.0

  datatype TransitionPosition = TransitionPosition(
    me: byte, inTransition: bool, framesRemaining: byte, position: real)

  function DecodeTransitionPosition(p: seq<byte>): (r: Result<TransitionPosition>)
    ensures r.Success? <==> |p| == 8
    ensures r.Failure? ==> r.error == WrongSize(8, |p|)
    ensures r.Success? ==> (r.value.inTransition <==> p[1] != 0)
    ensures r.Success? ==> 0.0 <= r.value.position <= 65535.0 / POSITION_SCALE
  {
    if |p| != 8 then Failure(WrongSize(8, |p|))
    else Success(TransitionPosition(p[0], Truth(p[1]), p[2], U16At(p, 4) as real / POSITION_SCALE))
  }

  // ---------------------------------------------------------------------------
  // `TlIn`: tally by input index, a `>H` count then one byte per light

  datatype TallyIndex = TallyIndex(num: u16, tally: seq<Tally>)

  /** The loop of `TallyIndexField.__init__` from `offset` on, with
      `remaining` iterations left: each iteration unpacks one byte. */
  function TallyIndexEntries(p: seq<byte>, offset: nat, remaining: nat): (r: Result<seq<Tally>>)
    requires offset <= |p|
    ensures r.Success? <==> offset + remaining <= |p|
    ensures r.Success? ==> |r.value| == remaining
    ensures r.Success? ==> forall i :: 0 <= i < remaining ==> r.value[i] == TallyOf(p[offset + i])
    ensures r.Failure? ==> r.error == TooShort(|p|, 1, |p|)
    decreases remaining
  {
    if remaining == 0 then Success([])
    else if offset + 1 > |p| then Failure(TooShort(offset, 1, |p|))
    else match TallyIndexEntries(p, offset + 1, remaining - 1)
      case Failure(e) => Failure(e)
      case Success(rest) => Success([TallyOf(p[offset])] + rest)
  }

  /** Needs the two count bytes and then `num` more; bytes after those are
      ignored. The lights come out in wire order. */
  function DecodeTallyIndex(p: seq<byte>): (r: Result<TallyIndex>)
    ensures r.Success? <==> |p| >= 2 && 2 + U16At(p, 0) <= |p|
    ensures |p| < 2 ==> r == Failure(TooShort(0, 2, |p|))
    ensures |p| >= 2 && r.Failure? ==> r.error == TooShort(|p|, 1, |p|)
    ensures r.Success? ==> r.value.num == U16At(p, 0) && |r.value.tally| == r.value.num
    ensures r.Success? ==> forall i :: 0 <= i < |r.value.tally| ==> r.value.tally[i] == TallyOf(p[2 + i])
  {
    if |p| < 2 then Failure(TooShort(0, 2, |p|))
    else
      var num := U16At(p, 0);
      match TallyIndexEntries(p, 2, num)
      case Failure(e) => Failure(e)
      case Success(tally) => Success(TallyIndex(num, tally))
  }

  // ---------------------------------------------------------------------------
  // `TlSr`: tally by source index, a `>H` count then `>HB` per light

  datatype TallySource = TallySource(num: u16, tally: map<u16, Tally>)

  /** The `(source, tally)` pairs the loop of `TallySourceField.__init__`
      unpacks from `offset` on, with `remaining` iterations left. */
  function TallySourceEntries(p: seq<byte>, offset: nat, remaining: nat): (r: Result<seq<(u16, Tally)>>)
    requires offset <= |p|
    ensures r.Success? <==> offset + 3 * remaining <= |p|
    ensures r.Success? ==> |r.value| == remaining
    ensures r.Success? ==> forall i :: 0 <= i < remaining ==>
              r.value[i] == (U16At(p, offset + 3 * i), TallyOf(p[offset + 3 * i + 2]))
    ensures r.Failure? ==> r.error == TooShort(offset + 3 * ((|p| - offset) / 3), 3, |p|)
    decreases remaining
  {
    if remaining == 0 then Success([])
    else if offset + 3 > |p| then Failure(TooShort(offset, 3, |p|))
    else match TallySourceEntries(p, offset + 3, remaining - 1)
      case Failure(e) => Failure(e)
      case Success(rest) => Success([(U16At(p, offset), TallyOf(p[offset + 2]))] + rest)
  }

  /** The dictionary the loop builds by assigning `tally[source]` for each
      pair in wire order: every source that occurs is a key, and its value is
      the one from its last occurrence. */
  function LastWins(es: seq<(u16, Tally)>): (m: map<u16, Tally>)
    ensures m.Keys == set i | 0 <= i < |es| :: es[i].0
    ensures forall i :: 0 <= i < |es| && (forall j :: i < j < |es| ==> es[j].0 != es[i].0) ==>
              m[es[i].0] == es[i].1
  {
    if |es| == 0 then map[]
    else
      var init := es[..|es| - 1];
      var last := es[|es| - 1];
      var m := LastWins(init)[last.0 := last.1];
      assert forall i :: 0 <= i < |es| - 1 ==> init[i] == es[i];
      m
  }

  /** Needs the two count bytes and then three bytes per light; bytes after
      those are ignored. */
  function DecodeTallySource(p: seq<byte>): (r: Result<TallySource>)
    ensures r.Success? <==> |p| >= 2 && 2 + 3 * U16At(p, 0) <= |p|
    ensures |p| < 2 ==> r == Failure(TooShort(0, 2, |p|))
    ensures |p| >= 2 && r.Failure? ==> r.error == TooShort(2 + 3 * ((|p| - 2) / 3), 3, |p|)
    ensures r.Success? ==> r.value.num == U16At(p, 0)
  {
    if |p| < 2 then Failure(TooShort(0, 2, |p|))
    else
      var num := U16At(p, 0);
      match TallySourceEntries(p, 2, num)
      case Failure(e) => Failure(e)
      case Success(es) => Success(TallySource(num, LastWins(es)))
  }

  // ---------------------------------------------------------------------------
  // `KeOn`: upstream keyer on air, format `>BB?x`

  datatype KeyOnAir = KeyOnAir(me: byte, keyer: byte, enabled: bool)

  function DecodeKeyOnAir(p: seq<byte>): (r: Result<KeyOnAir>)
    ensures r.Success? <==> |p| == 4
    ensures r.Failure? ==> r.error == WrongSize(4, |p|)
    ensures r.Success? ==> (r.value.enabled <==> p[2] != 0)
  {
    if |p| != 4 then Failure(WrongSize(4, |p|))
    else Success(KeyOnAir(p[0], p[1], Truth(p[2])))
  }

  // ---------------------------------------------------------------------------
  // `ColV`: color generator, format `>Bx 3H`

  /** Hue is sent in tenths of a degree, saturation and luma in thousandths. */
  const HUE_SCALE: real := 10.0
  const LEVEL_SCALE: real := 1000.0

  datatype ColorGenerator = ColorGenerator(index: byte, hue: real, saturation: real, luma: real)

  function DecodeColorGenerator(p: seq<byte>): (r: Result<ColorGenerator>)
    ensures r.Success? <==> |p| == 8
    ensures r.Failure? ==> r.error == WrongSize(8, |p|)
    ensures r.Success? ==> 0.0 <= r.value.hue <= 65535.0 / HUE_SCALE
    ensures r.Success? ==> 0.0 <= r.value.saturation <= 65535.0 / LEVEL_SCALE
    ensures r.Success? ==> 0.0 <= r.value.luma <= 65535.0 / LEVEL_SCALE
  {
    if |p| != 8 then Failure(WrongSize(8, |p|))
    else Success(ColorGenerator(
      p[0],
      U16At(p, 2) as real / HUE_SCALE,
      U16At(p, 4) as real / LEVEL_SCALE,
      U16At(p, 6) as real / LEVEL_SCALE))
  }

  // ---------------------------------------------------------------------------
  // `FtbS`: fade-to-black state, format `>B??B`

  datatype FadeToBlackState = FadeToBlackState(
    me: byte, done: bool, transitioning: bool, framesRemaining: byte)

  function DecodeFadeToBlackState(p: seq<byte>): (r: Result<FadeToBlackState>)
    ensures r.Success? <==> |p| == 4
    ensures r.Failure? ==> r.error == WrongSize(4, |p|)
    ensures r.Success? ==> (r.value.done <==> p[1] != 0)
    ensures r.Success? ==> (r.value.transitioning <==> p[2] != 0)
  {
    if |p| != 4 then Failure(WrongSize(4, |p|))
    else Success(FadeToBlackState(p[0], Truth(p[1]), Truth(p[2]), p[3]))
  }

  // ---------------------------------------------------------------------------
  // `MPfe`: mediaplayer file info, format `>Bx H ? 16s 2x {len - 23}p`

  const MEDIAPLAYER_HEADER: nat := 23

  datatype MediaplayerFileInfo = MediaplayerFileInfo(
    kind: byte, index: u16, isUsed: bool, hash: seq<byte>, name: seq<byte>)

  /** The Pascal field spans the whole rest of the payload, so the format
      always matches the payload's size; a payload shorter than the 23-byte
      header makes the field width negative and the format invalid. The name
      is clamped to the bytes present and never read past the payload. At
      exactly 23 bytes the field is `0p`, and the model chooses an empty name. */
  function DecodeMediaplayerFileInfo(p: seq<byte>): (r: Result<MediaplayerFileInfo>)
    ensures r.Success? <==> |p| >= MEDIAPLAYER_HEADER
    ensures r.Failure? ==> r.error == BadFormat
    ensures r.Success? ==> r.value.kind == p[0] && r.value.index == U16At(p, 2) && (r.value.isUsed <==> p[4] != 0)
    ensures r.Success? ==> |r.value.hash| == 16 && r.value.hash == p[5..21]
    ensures r.Success? && |p| == MEDIAPLAYER_HEADER ==> r.value.name == []
    ensures r.Success? && |p| > MEDIAPLAYER_HEADER ==>
              |r.value.name| == (if p[23] < |p| - 24 then p[23] else |p| - 24)
              && r.value.name == p[24..24 + |r.value.name|]
  {
    if |p| < MEDIAPLAYER_HEADER then Failure(BadFormat)
    else Success(MediaplayerFileInfo(p[0], U16At(p, 2), Truth(p[4]), p[5..21], PascalString(p[23..])))
  }
}

=== FILE: field_base.dfy ===
/** `FieldBase`, the base class of every mixer record decoder: its one helper
    reads NUL-terminated text out of a fixed-width field. */
module FieldBase {
  import opened Struct

  const NUL: byte := 0

  /** `FieldBase._get_string` before its UTF-8 decode: the bytes of `raw` in
      front of the first NUL, or all of `raw` when it holds no NUL. */
  function CString(raw: seq<byte>): (s: seq<byte>)
    ensures s <= raw
    ensures NUL !in s
    ensures |s| < |raw| ==> raw[|s|] == NUL
  {
    if |raw| == 0 || raw[0] == NUL then [] else [raw[0]] + CString(raw[1..])
  }

  /** `bytes.split(sep)`: the pieces between occurrences of `sep`, in order;
      there is always one more piece than there are separators. */
  function Split(raw: seq<byte>, sep: byte): (pieces: seq<seq<byte>>)
    ensures |pieces| >= 1
    ensures forall k :: 0 <= k < |pieces| ==> sep !in pieces[k]
  {
    if |raw| == 0 then [[]]
    else
      var rest := Split(raw[1..], sep);
      if raw[0] == sep then [[]] + rest
      else [[raw[0]] + rest[0]] + rest[1..]
  }

  /** `CString` is the first piece of `raw.split(b'\x00')`, which is how the
      source computes it. */
  lemma {:induction false} CStringIsFirstPiece(raw: seq<byte>)
    ensures CString(raw) == Split(raw, NUL)[0]
  {
    if |raw| > 0 && raw[0] != NUL {
      CStringIsFirstPiece(raw[1..]);
    }
  }

  /** Text followed by a NUL, or by nothing, reads back as itself whatever
      comes after the NUL. */
  lemma {:induction false} CStringOfTerminated(s: seq<byte>, rest: seq<byte>)
    requires NUL !in s
    requires rest == [] || rest[0] == NUL
    ensures CString(s + rest) == s
  {
    if |s| > 0 {
      assert (s + rest)[1..] == s[1..] + rest;
      CStringOfTerminated(s[1..], rest);
    }
  }

  /** `n` NUL bytes: the padding after text in a fixed-width field. */
  function Zeros(n: nat): (z: seq<byte>)
    ensures |z| == n
    ensures forall i :: 0 <= i < n ==> z[i] == NUL
  {
    seq(n, _ => NUL)
  }

  /** Text padded with NULs to fill a `width`-byte field. */
  function TextField(s: seq<byte>, width: nat): (field: seq<byte>)
    requires |s| <= width
    ensures |field| == width
  {
    s + Zeros(width - |s|)
  }

  /** A fixed-width text field reads back as the text it was padded from. */
  lemma TextFieldRoundTrip(s: seq<byte>, width: nat)
    requires NUL !in s && |s| <= width
    ensures CString(TextField(s, width)) == s
  {
    CStringOfTerminated(s, Zeros(width - |s|));
  }

  /** Reading text out of text that was already read changes nothing. */
  lemma CStringIdempotent(raw: seq<byte>)
    ensures CString(CString(raw)) == CString(raw)
  {
    CStringOfTerminated(CString(raw), []);
    assert CString(raw) + [] == CString(raw);
  }
}

=== FILE: field_laws.dfy ===
/** What the mixer record decoders promise, stated against partners of the
    model's own: for every record an encoder that writes the layout the
    decoder reads (these encoders are not part of `field.py`), with the round
    trip that ties the two together; the reserved bytes every decoder skips;
    the independence of the bitfield flags; and the worked examples of the
    record layouts. */
module FieldLaws {
  import opened Struct
  import opened DecimalText
  import opened FieldBase
  import opened VideoModes
  import opened Field

  // ---------------------------------------------------------------------------
  // Bitfield flags

  function LayersMask(l: Layers): byte {
    Mask5(l.bkgd, l.key1, l.key2, l.key3, l.key4)
  }

  function AvailabilityMask(a: Availability): byte {
    Mask5(a.aux, a.multiview, a.supersourceArt, a.supersourceBox, a.keySource)
  }

  function MeAvailabilityMask(a: MeAvailability): byte {
    Mask5(a.me1, a.me2, false, false, false)
  }

  function TallyByte(t: Tally): byte {
    Mask5(t.program, t.preview, false, false, false)
  }

  /** Every combination of the five layer flags is carried by some byte, and
      a layer byte carries nothing but its low five bits: the flags are
      independent bits 0..4. */
  lemma LayersRoundTrip(l: Layers, b: byte)
    ensures LayersOf(LayersMask(l)) == l
    ensures LayersMask(LayersOf(b)) == b % 32
  {
    Mask5Bits(l.bkgd, l.key1, l.key2, l.key3, l.key4);
    Mask5OfBits(b);
  }

  /** The same for the five routing flags of byte 34 of `InPr`. */
  lemma AvailabilityRoundTrip(a: Availability, b: byte)
    ensures AvailabilityOf(AvailabilityMask(a)) == a
    ensures AvailabilityMask(AvailabilityOf(b)) == b % 32
  {
    Mask5Bits(a.aux, a.multiview, a.supersourceArt, a.supersourceBox, a.keySource);
    Mask5OfBits(b);
  }

  /** The M/E flags of byte 35 of `InPr` and the two tally bits are likewise
      independent, and each of those bytes carries nothing but bits 0..1. */
  lemma TwoFlagRoundTrip(a: MeAvailability, t: Tally, b: byte)
    ensures MeAvailabilityOf(MeAvailabilityMask(a)) == a
    ensures TallyOf(TallyByte(t)) == t
    ensures MeAvailabilityMask(MeAvailabilityOf(b)) == b % 4
    ensures TallyByte(TallyOf(b)) == b % 4
  {
    Mask5Bits(a.me1, a.me2, false, false, false);
    Mask5Bits(t.program, t.preview, false, false, false);
    Mask2OfBits(b);
  }

  /** A `?` byte as `struct` reads it, written back as 0 or 1. */
  function TruthNormal(b: byte): (n: byte)
    ensures n < 2 && (n == 1 <==> b != 0)
  {
    if b == 0 then 0 else 1
  }

  // ---------------------------------------------------------------------------
  // Fixed-point values

  /** `x` is a value the wire can carry at this scale: a 16-bit integer
      divided by `scale`. */
  ghost predicate OnGrid(x: real, scale: real) {
    0.0 <= x && x * scale < 65536.0 && (x * scale).Floor as real == x * scale
  }

  /** The wire integer for `x`: `x * scale` rounded down. */
  function Quantize(x: real, scale: real): (v: u16)
    requires 0.0 <= x && 0.0 < scale && x * scale < 65536.0
    ensures v as real <= x * scale < v as real + 1.0
  {
    (x * scale).Floor
  }

  // ---------------------------------------------------------------------------
  // `_ver`

  function EncodeFirmwareVersion(v: FirmwareVersion): (p: seq<byte>)
    ensures |p| == 4
  {
    U16Bytes(v.major) + U16Bytes(v.minor)
  }

  /** Both numbers are read big-endian, and every 4-byte payload is the
      encoding of the version it decodes to. */
  lemma FirmwareVersionRoundTrip(v: FirmwareVersion, p: seq<byte>)
    ensures DecodeFirmwareVersion(EncodeFirmwareVersion(v)) == Success(v)
    ensures |p| == 4 ==> EncodeFirmwareVersion(DecodeFirmwareVersion(p).value) == p
  {
    var e := EncodeFirmwareVersion(v);
    assert e[0..2] == U16Bytes(v.major) && e[2..4] == U16Bytes(v.minor);
    if |p| == 4 {
      U16BytesOfRead(p, 0);
      U16BytesOfRead(p, 2);
      assert p == p[0..2] + p[2..4];
    }
  }

  /** `"{}.{}".format(major, minor)`: the version text of `FirmwareVersionField`. */
  function VersionText(v: FirmwareVersion): (s: string)
    ensures '.' in s
  {
    var text := Decimal(v.major) + "." + Decimal(v.minor);
    assert text[|Decimal(v.major)|] == '.';
    text
  }

  /** The version text determines the version: the digits before the dot
      are the major number and those after it the minor number. */
  lemma VersionTextInjective(v: FirmwareVersion, w: FirmwareVersion)
    requires VersionText(v) == VersionText(w)
    ensures v == w
  {
    var a, b := Decimal(v.major), Decimal(w.major);
    assert VersionText(v) == a + "." + Decimal(v.minor);
    assert VersionText(w) == b + "." + Decimal(w.minor);
    assert |a| == |b|;
    assert a == VersionText(v)[..|a|] == VersionText(w)[..|b|] == b;
    assert Decimal(v.minor) == VersionText(v)[|a| + 1..] == VersionText(w)[|b| + 1..] == Decimal(w.minor);
    DecimalInjective(v.major, w.major);
    DecimalInjective(v.minor, w.minor);
  }

  // ---------------------------------------------------------------------------
  // `_pin`

  /** The name padded with NULs to the 44-byte field the mixer sends. */
  function EncodeProductName(v: ProductName): (p: seq<byte>)
    requires |v.name| <= 44
    ensures |p| == 44
  {
    TextField(v.name, 44)
  }

  lemma ProductNameRoundTrip(v: ProductName)
    requires NUL !in v.name && |v.name| <= 44
    ensures DecodeProductName(EncodeProductName(v)) == Success(v)
  {
    TextFieldRoundTrip(v.name, 44);
  }

  // ---------------------------------------------------------------------------
  // `_MeC` and `_mpl`

  function EncodeMixerEffectConfig(v: MixerEffectConfig): (p: seq<byte>)
    ensures |p| == 4
  {
    [v.me, v.keyers, 0, 0]
  }

  lemma MixerEffectConfigRoundTrip(v: MixerEffectConfig)
    ensures DecodeMixerEffectConfig(EncodeMixerEffectConfig(v)) == Success(v)
  {
  }

  /** The reserved bytes 2 and 3 never affect the result. */
  lemma MixerEffectConfigPadding(p: seq<byte>, q: seq<byte>)
    requires AgreeOutside(p, q, {2, 3})
    ensures DecodeMixerEffectConfig(p) == DecodeMixerEffectConfig(q)
  {
  }

  /** Every 4-byte payload decodes to the record whose encoding is that
      payload with its reserved bytes cleared. */
  lemma MixerEffectConfigNormalForm(p: seq<byte>)
    requires |p| == 4
    ensures EncodeMixerEffectConfig(DecodeMixerEffectConfig(p).value) == [p[0], p[1], 0, 0]
  {
  }

  function EncodeMediaplayerSlots(v: MediaplayerSlots): (p: seq<byte>)
    ensures |p| == 4
  {
    [v.stills, v.clips, 0, 0]
  }

  lemma MediaplayerSlotsRoundTrip(v: MediaplayerSlots)
    ensures DecodeMediaplayerSlots(EncodeMediaplayerSlots(v)) == Success(v)
  {
  }

  lemma MediaplayerSlotsPadding(p: seq<byte>, q: seq<byte>)
    requires AgreeOutside(p, q, {2, 3})
    ensures DecodeMediaplayerSlots(p) == DecodeMediaplayerSlots(q)
  {
  }

  lemma MediaplayerSlotsNormalForm(p: seq<byte>)
    requires |p| == 4
    ensures EncodeMediaplayerSlots(DecodeMediaplayerSlots(p).value) == [p[0], p[1], 0, 0]
  {
  }

  // ---------------------------------------------------------------------------
  // `VidM`

  function EncodeVideoMode(v: VideoMode): (p: seq<byte>)
    ensures |p| == 4
  {
    [v.mode, 0, 0, 0]
  }

  /** A mode record round-trips when its format is the one the table gives
      its code. */
  lemma VideoModeRoundTrip(v: VideoMode)
    requires v.format == FormatOf(v.mode)
    ensures DecodeVideoMode(EncodeVideoMode(v)) == Success(v)
  {
  }

  lemma VideoModePadding(p: seq<byte>, q: seq<byte>)
    requires AgreeOutside(p, q, {1, 2, 3})
    ensures DecodeVideoMode(p) == DecodeVideoMode(q)
  {
  }

  lemma VideoModeNormalForm(p: seq<byte>)
    requires |p| == 4
    ensures EncodeVideoMode(DecodeVideoMode(p).value) == [p[0], 0, 0, 0]
  {
  }

  /** A known code decodes to exactly its row of the table. */
  lemma VideoModeKnown(p: seq<byte>)
    requires |p| == 4 && (p[0] <= 17 || p[0] == 26 || p[0] == 27)
    ensures DecodeVideoMode(p).Success?
    ensures DecodeVideoMode(p).value.format == Some(Modes[p[0]])
  {
  }

  /** Codes 18..25 and 28 and above still decode, and their label is
      `unknown [<code>]`. */
  lemma VideoModeUnknown(p: seq<byte>)
    requires |p| == 4 && (18 <= p[0] <= 25 || p[0] >= 28)
    ensures DecodeVideoMode(p).Success?
    ensures DecodeVideoMode(p).value.format.None?
    ensures Label(DecodeVideoMode(p).value) == "unknown [" + Decimal(p[0]) + "]"
  {
  }

  /** Labels of two known codes. */
  lemma VideoModeLabels()
    ensures Label(DecodeVideoMode([7, 0, 0, 0]).value) == "1080i59.94"
    ensures Label(DecodeVideoMode([26, 0, 0, 0]).value) == "1080p30"
  {
    VideoModeLabelInterlaced();
    VideoModeLabelProgressive();
  }

  lemma DecimalOf1080()
    ensures Decimal(1080) == "1080"
  {
    assert Decimal(108) == "108" by {
      assert Decimal(10) == "10";
    }
  }

  /** Mode 7 has the fractional rate 59.94, printed with two decimals. */
  lemma VideoModeLabelInterlaced()
    ensures DecodeVideoMode([7, 0, 0, 0]) == Success(VideoMode(7, Some(ModeFormat(1080, true, 5994))))
    ensures Label(DecodeVideoMode([7, 0, 0, 0]).value) == "1080i59.94"
  {
    DecimalOf1080();
    assert RateText(5994) == "59.94" by {
      assert Decimal(59) == "59";
    }
  }

  /** Mode 26 has the whole rate 30, printed without a fraction. */
  lemma VideoModeLabelProgressive()
    ensures DecodeVideoMode([26, 0, 0, 0]) == Success(VideoMode(26, Some(ModeFormat(1080, false, 3000))))
    ensures Label(DecodeVideoMode([26, 0, 0, 0]).value) == "1080p30"
  {
    DecimalOf1080();
    assert RateText(3000) == "30" by {
      assert Decimal(30) == "30";
    }
  }

  /** `get_label` as written raises for code 18, which decodes without error;
      the intended label is `unknown [18]`. */
  lemma VideoModeLabelAsWrittenFails()
    ensures DecodeVideoMode([18, 0, 0, 0]).Success?
    ensures LabelAsWritten(DecodeVideoMode([18, 0, 0, 0]).value) == None
    ensures Label(DecodeVideoMode([18, 0, 0, 0]).value) == "unknown [18]"
  {
    assert Decimal(18) == "18";
  }

  // ---------------------------------------------------------------------------
  // `InPr`

  /** The text fields of an input fit their fields with room to spare. */
  ghost predicate InputTextFits(v: InputProperties) {
    NUL !in v.name && |v.name| <= 20 && NUL !in v.shortName && |v.shortName| <= 4
  }

  function EncodeInputProperties(v: InputProperties): (p: seq<byte>)
    requires |v.name| <= 20 && |v.shortName| <= 4
    ensures |p| == 36
  {
    U16Bytes(v.index) + TextField(v.name, 20) + TextField(v.shortName, 4)
    + [v.sourceCategory, 0, 0, v.sourcePorts, 0, 0, v.portType, 0,
       AvailabilityMask(v.available), MeAvailabilityMask(v.meAvailable)]
  }

  lemma InputPropertiesRoundTrip(v: InputProperties)
    requires InputTextFits(v)
    ensures DecodeInputProperties(EncodeInputProperties(v)) == Success(v)
  {
    var p := EncodeInputProperties(v);
    assert p[0..2] == U16Bytes(v.index);
    assert p[2..22] == TextField(v.name, 20);
    assert p[22..26] == TextField(v.shortName, 4);
    TextFieldRoundTrip(v.name, 20);
    TextFieldRoundTrip(v.shortName, 4);
    assert p[34] == AvailabilityMask(v.available) && p[35] == MeAvailabilityMask(v.meAvailable);
    AvailabilityRoundTrip(v.available, 0);
    Mask5Bits(v.meAvailable.me1, v.meAvailable.me2, false, false, false);
    var d := DecodeInputProperties(p).value;
    assert d.index == v.index && d.name == v.name && d.shortName == v.shortName;
    assert d.available == v.available && d.meAvailable == v.meAvailable;
  }

  /** Bytes 27, 28, 30, 31 and 33 are unpacked but never used. */
  lemma InputPropertiesUnusedBytes(p: seq<byte>, q: seq<byte>)
    requires AgreeOutside(p, q, {27, 28, 30, 31, 33})
    ensures DecodeInputProperties(p) == DecodeInputProperties(q)
  {
    if |p| == 36 {
      assert p[2..22] == q[2..22];
      assert p[22..26] == q[22..26];
    }
  }

  /** Changing byte 35 never changes the five routing flags, and changing
      byte 34 never changes the two M/E flags. */
  lemma InputPropertiesFlagBytesIndependent(p: seq<byte>, b: byte)
    requires |p| == 36
    ensures DecodeInputProperties(p[35 := b]).value.available == DecodeInputProperties(p).value.available
    ensures DecodeInputProperties(p[34 := b]).value.meAvailable == DecodeInputProperties(p).value.meAvailable
  {
  }

  /** Every 36-byte payload: the index is the big-endian word at 0, the
      three kept bytes are bytes 26, 29 and 32, the routing flags carry
      exactly bits 0..4 of byte 34 and the M/E flags exactly bits 0..1 of
      byte 35. */
  lemma InputPropertiesFromBytes(p: seq<byte>)
    requires |p| == 36
    ensures var v := DecodeInputProperties(p).value;
            && v.index == U16At(p, 0)
            && v.sourceCategory == p[26] && v.sourcePorts == p[29] && v.portType == p[32]
            && AvailabilityMask(v.available) == p[34] % 32
            && MeAvailabilityMask(v.meAvailable) == p[35] % 4
  {
    AvailabilityRoundTrip(Availability(false, false, false, false, false), p[34]);
    TwoFlagRoundTrip(MeAvailability(false, false), Tally(false, false), p[35]);
  }

  // ---------------------------------------------------------------------------
  // `PrgI` and `PrvI`

  function EncodeProgramBusInput(v: ProgramBusInput): (p: seq<byte>)
    ensures |p| == 4
  {
    [v.me, 0] + U16Bytes(v.source)
  }

  lemma ProgramBusInputRoundTrip(v: ProgramBusInput)
    ensures DecodeProgramBusInput(EncodeProgramBusInput(v)) == Success(v)
  {
    assert EncodeProgramBusInput(v)[2..4] == U16Bytes(v.source);
  }

  lemma ProgramBusInputPadding(p: seq<byte>, q: seq<byte>)
    requires AgreeOutside(p, q, {1})
    ensures DecodeProgramBusInput(p) == DecodeProgramBusInput(q)
  {
  }

  lemma ProgramBusInputNormalForm(p: seq<byte>)
    requires |p| == 4
    ensures EncodeProgramBusInput(DecodeProgramBusInput(p).value) == [p[0], 0, p[2], p[3]]
  {
    U16BytesOfRead(p, 2);
  }

  function EncodePreviewBusInput(v: PreviewBusInput): (p: seq<byte>)
    ensures |p| == 8
  {
    [v.me, 0] + U16Bytes(v.source) + [TruthByte(v.inProgram), 0, 0, 0]
  }

  lemma PreviewBusInputRoundTrip(v: PreviewBusInput)
    ensures DecodePreviewBusInput(EncodePreviewBusInput(v)) == Success(v)
  {
    assert EncodePreviewBusInput(v)[2..4] == U16Bytes(v.source);
  }

  lemma PreviewBusInputPadding(p: seq<byte>, q: seq<byte>)
    requires AgreeOutside(p, q, {1, 5, 6, 7})
    ensures DecodePreviewBusInput(p) == DecodePreviewBusInput(q)
  {
  }

  /** Every 8-byte payload decodes to the record whose encoding clears the
      reserved bytes and writes byte 4 as 1 exactly when it was 1. */
  lemma PreviewBusInputNormalForm(p: seq<byte>)
    requires |p| == 8
    ensures EncodePreviewBusInput(DecodePreviewBusInput(p).value)
         == [p[0], 0, p[2], p[3], if p[4] == 1 then 1 else 0, 0, 0, 0]
  {
    U16BytesOfRead(p, 2);
  }

  /** Unlike the `?` fields of the other records, a byte of 2 does not put
      the preview source in program, while the same byte makes a transition
      preview enabled. */
  lemma InProgramIsNotTruth()
    ensures !DecodePreviewBusInput([0, 0, 0, 1, 2, 0, 0, 0]).value.inProgram
    ensures DecodeTransitionPreview([0, 2, 0, 0]).value.enabled
  {
  }

  // ---------------------------------------------------------------------------
  // `TrSS`

  function EncodeTransitionSettings(v: TransitionSettings): (p: seq<byte>)
    ensures |p| == 8
  {
    [v.me, v.style, LayersMask(v.next), v.styleNext, LayersMask(v.nextAfter), 0, 0, 0]
  }

  lemma TransitionSettingsRoundTrip(v: TransitionSettings)
    ensures DecodeTransitionSettings(EncodeTransitionSettings(v)) == Success(v)
  {
    LayersRoundTrip(v.next, 0);
    LayersRoundTrip(v.nextAfter, 0);
  }

  lemma TransitionSettingsPadding(p: seq<byte>, q: seq<byte>)
    requires AgreeOutside(p, q, {5, 6, 7})
    ensures DecodeTransitionSettings(p) == DecodeTransitionSettings(q)
  {
  }

  /** The two layer groups come from different bytes: changing byte 4 never
      changes the next-transition layers and changing byte 2 never changes
      the layers of the transition after it. */
  lemma TransitionSettingsLayerBytesIndependent(p: seq<byte>, b: byte)
    requires |p| == 8
    ensures DecodeTransitionSettings(p[4 := b]).value.next == DecodeTransitionSettings(p).value.next
    ensures DecodeTransitionSettings(p[2 := b]).value.nextAfter == DecodeTransitionSettings(p).value.nextAfter
  {
  }

  /** Every 8-byte payload decodes to the record whose encoding clears the
      reserved bytes and keeps bits 0..4 of each layer byte: no layer flag
      is lost and none is read from bits 5..7. */
  lemma TransitionSettingsNormalForm(p: seq<byte>)
    requires |p| == 8
    ensures EncodeTransitionSettings(DecodeTransitionSettings(p).value)
         == [p[0], p[1], p[2] % 32, p[3], p[4] % 32, 0, 0, 0]
  {
    var l0 := Layers(false, false, false, false, false);
    LayersRoundTrip(l0, p[2]);
    LayersRoundTrip(l0, p[4]);
  }

  // ---------------------------------------------------------------------------
  // `TsPr`

  function EncodeTransitionPreview(v: TransitionPreview): (p: seq<byte>)
    ensures |p| == 4
  {
    [v.me, TruthByte(v.enabled), 0, 0]
  }

  lemma TransitionPreviewRoundTrip(v: TransitionPreview)
    ensures DecodeTransitionPreview(EncodeTransitionPreview(v)) == Success(v)
  {
  }

  lemma TransitionPreviewPadding(p: seq<byte>, q: seq<byte>)
    requires AgreeOutside(p, q, {2, 3})
    ensures DecodeTransitionPreview(p) == DecodeTransitionPreview(q)
  {
  }

  lemma TransitionPreviewNormalForm(p: seq<byte>)
    requires |p| == 4
    ensures EncodeTransitionPreview(DecodeTransitionPreview(p).value) == [p[0], TruthNormal(p[1]), 0, 0]
  {
  }

  // ---------------------------------------------------------------------------
  // `TrPs`

  function EncodeTransitionPosition(v: TransitionPosition): (p: seq<byte>)
    requires 0.0 <= v.position && v.position * POSITION_SCALE < 65536.0
    ensures |p| == 8
  {
    [v.me, TruthByte(v.inTransition), v.framesRemaining, 0]
    + U16Bytes(Quantize(v.position, POSITION_SCALE)) + [0, 0]
  }

  lemma TransitionPositionRoundTrip(v: TransitionPosition)
    requires OnGrid(v.position, POSITION_SCALE)
    ensures DecodeTransitionPosition(EncodeTransitionPosition(v)) == Success(v)
  {
    var p := EncodeTransitionPosition(v);
    assert p[4..6] == U16Bytes(Quantize(v.position, POSITION_SCALE));
  }

  /** Any position the wire can reach comes back rounded down to the
      previous multiple of 1/9999, so less than 1/9999 away. */
  lemma TransitionPositionPrecision(v: TransitionPosition)
    requires 0.0 <= v.position && v.position * POSITION_SCALE < 65536.0
    ensures var d := DecodeTransitionPosition(EncodeTransitionPosition(v));
            d.Success? && d.value.position <= v.position < d.value.position + 1.0 / POSITION_SCALE
  {
    var p := EncodeTransitionPosition(v);
    var k := Quantize(v.position, POSITION_SCALE);
    assert p[4..6] == U16Bytes(k);
    assert U16At(p, 4) == k;
  }

  /** Half way along the T-bar reads back within 1/9999 of one half. */
  lemma TransitionPositionHalf()
    ensures var d := DecodeTransitionPosition(EncodeTransitionPosition(TransitionPosition(0, true, 10, 0.5)));
            d.Success? && 0.5 - 1.0 / POSITION_SCALE < d.value.position <= 0.5
  {
    TransitionPositionPrecision(TransitionPosition(0, true, 10, 0.5));
  }

  lemma TransitionPositionPadding(p: seq<byte>, q: seq<byte>)
    requires AgreeOutside(p, q, {3, 6, 7})
    ensures DecodeTransitionPosition(p) == DecodeTransitionPosition(q)
  {
  }

  /** Every 8-byte payload decodes to a position on the 1/9999 grid whose
      encoding gives back the wire word, with the reserved bytes cleared. */
  lemma TransitionPositionNormalForm(p: seq<byte>)
    requires |p| == 8
    ensures var v := DecodeTransitionPosition(p).value;
            OnGrid(v.position, POSITION_SCALE)
            && EncodeTransitionPosition(v) == [p[0], TruthNormal(p[1]), p[2], 0, p[4], p[5], 0, 0]
  {
    var k := U16At(p, 4);
    assert (k as real / POSITION_SCALE) * POSITION_SCALE == k as real;
    U16BytesOfRead(p, 4);
  }

  // ---------------------------------------------------------------------------
  // `TlIn`

  function EncodeTallyIndex(v: TallyIndex): (p: seq<byte>)
    requires |v.tally| == v.num
    ensures |p| == 2 + v.num
  {
    U16Bytes(v.num) + seq(|v.tally|, i requires 0 <= i < |v.tally| => TallyByte(v.tally[i]))
  }

  lemma TallyIndexRoundTrip(v: TallyIndex)
    requires |v.tally| == v.num
    ensures DecodeTallyIndex(EncodeTallyIndex(v)) == Success(v)
  {
    var p := EncodeTallyIndex(v);
    assert p[0..2] == U16Bytes(v.num);
    assert U16At(p, 0) == v.num;
    var r := DecodeTallyIndex(p);
    forall i | 0 <= i < v.num
      ensures r.value.tally[i] == v.tally[i]
    {
      assert p[2 + i] == TallyByte(v.tally[i]);
      TwoFlagRoundTrip(MeAvailability(false, false), v.tally[i], 0);
    }
    assert r.value.tally == v.tally;
  }

  /** Bytes after the last tally byte never affect the result. */
  lemma TallyIndexTrailing(p: seq<byte>, extra: seq<byte>)
    requires DecodeTallyIndex(p).Success?
    ensures DecodeTallyIndex(p + extra) == DecodeTallyIndex(p)
  {
    var q := p + extra;
    assert q[0..2] == p[0..2];
    var a, b := DecodeTallyIndex(p).value, DecodeTallyIndex(q).value;
    assert a.tally == b.tally;
  }

  /** Three lights with the bytes 1, 2 and 3: program only, preview only,
      and both. */
  lemma TallyIndexExample()
    ensures DecodeTallyIndex([0, 3, 1, 2, 3])
         == Success(TallyIndex(3, [Tally(true, false), Tally(false, true), Tally(true, true)]))
  {
    var r := DecodeTallyIndex([0, 3, 1, 2, 3]);
    assert U16At([0, 3, 1, 2, 3], 0) == 3;
    assert r.value.tally[0] == TallyOf(1);
    assert r.value.tally[1] == TallyOf(2);
    assert r.value.tally[2] == TallyOf(3);
    assert TallyOf(1) == Tally(true, false);
    assert TallyOf(2) == Tally(false, true);
    assert TallyOf(3) == Tally(true, true);
    assert r.value.tally == [Tally(true, false), Tally(false, true), Tally(true, true)];
  }

  // ---------------------------------------------------------------------------
  // `TlSr`

  /** The source index of the `i`-th light of a `TlSr` payload. */
  function SourceAt(p: seq<byte>, i: nat): u16
    requires 2 + 3 * i + 3 <= |p|
  {
    U16At(p, 2 + 3 * i)
  }

  /** The tally byte of the `i`-th light of a `TlSr` payload. */
  function SourceTallyAt(p: seq<byte>, i: nat): Tally
    requires 2 + 3 * i + 3 <= |p|
  {
    TallyOf(p[2 + 3 * i + 2])
  }

  /** The keys of the decoded dictionary are exactly the sources listed. */
  lemma TallySourceKeys(p: seq<byte>, s: u16)
    requires DecodeTallySource(p).Success?
    ensures s in DecodeTallySource(p).value.tally <==>
            exists i :: 0 <= i < U16At(p, 0) && SourceAt(p, i) == s
  {
    var es := TallySourceEntries(p, 2, U16At(p, 0)).value;
    assert forall i :: 0 <= i < |es| ==> es[i].0 == SourceAt(p, i);
  }

  /** A source listed more than once keeps the tally of its last listing. */
  lemma TallySourceLastWins(p: seq<byte>, i: nat)
    requires DecodeTallySource(p).Success? && i < U16At(p, 0)
    requires forall j :: i < j < U16At(p, 0) ==> SourceAt(p, j) != SourceAt(p, i)
    ensures SourceAt(p, i) in DecodeTallySource(p).value.tally
    ensures DecodeTallySource(p).value.tally[SourceAt(p, i)] == SourceTallyAt(p, i)
  {
    var es := TallySourceEntries(p, 2, U16At(p, 0)).value;
    assert forall j :: 0 <= j < |es| ==> es[j] == (SourceAt(p, j), SourceTallyAt(p, j));
    assert es[i].0 in set k | 0 <= k < |es| :: es[k].0;
  }

  /** Bytes after the last light never affect the result. */
  lemma TallySourceTrailing(p: seq<byte>, extra: seq<byte>)
    requires DecodeTallySource(p).Success?
    ensures DecodeTallySource(p + extra) == DecodeTallySource(p)
  {
    assert (p + extra)[0] == p[0] && (p + extra)[1] == p[1];
    TallySourceEntriesExtend(p, extra, 2, U16At(p, 0));
  }

  /** The triples read from `p` are the same when more bytes follow it. */
  lemma {:induction false} TallySourceEntriesExtend(p: seq<byte>, extra: seq<byte>, offset: nat, remaining: nat)
    requires offset + 3 * remaining <= |p|
    ensures TallySourceEntries(p + extra, offset, remaining) == TallySourceEntries(p, offset, remaining)
    decreases remaining
  {
    if remaining > 0 {
      var q := p + extra;
      assert q[offset] == p[offset] && q[offset + 1] == p[offset + 1] && q[offset + 2] == p[offset + 2];
      TallySourceEntriesExtend(p, extra, offset + 3, remaining - 1);
    }
  }

  // ---------------------------------------------------------------------------
  // `KeOn` and `FtbS`

  function EncodeKeyOnAir(v: KeyOnAir): (p: seq<byte>)
    ensures |p| == 4
  {
    [v.me, v.keyer, TruthByte(v.enabled), 0]
  }

  lemma KeyOnAirRoundTrip(v: KeyOnAir)
    ensures DecodeKeyOnAir(EncodeKeyOnAir(v)) == Success(v)
  {
  }

  lemma KeyOnAirPadding(p: seq<byte>, q: seq<byte>)
    requires AgreeOutside(p, q, {3})
    ensures DecodeKeyOnAir(p) == DecodeKeyOnAir(q)
  {
  }

  lemma KeyOnAirNormalForm(p: seq<byte>)
    requires |p| == 4
    ensures EncodeKeyOnAir(DecodeKeyOnAir(p).value) == [p[0], p[1], TruthNormal(p[2]), 0]
  {
  }

  function EncodeFadeToBlackState(v: FadeToBlackState): (p: seq<byte>)
    ensures |p| == 4
  {
    [v.me, TruthByte(v.done), TruthByte(v.transitioning), v.framesRemaining]
  }

  lemma FadeToBlackStateRoundTrip(v: FadeToBlackState)
    ensures DecodeFadeToBlackState(EncodeFadeToBlackState(v)) == Success(v)
  {
  }

  lemma FadeToBlackStateNormalForm(p: seq<byte>)
    requires |p| == 4
    ensures EncodeFadeToBlackState(DecodeFadeToBlackState(p).value)
         == [p[0], TruthNormal(p[1]), TruthNormal(p[2]), p[3]]
  {
  }

  // ---------------------------------------------------------------------------
  // `ColV`

  ghost predicate ColorOnGrid(v: ColorGenerator) {
    OnGrid(v.hue, HUE_SCALE) && OnGrid(v.saturation, LEVEL_SCALE) && OnGrid(v.luma, LEVEL_SCALE)
  }

  function EncodeColorGenerator(v: ColorGenerator): (p: seq<byte>)
    requires 0.0 <= v.hue && v.hue * HUE_SCALE < 65536.0
    requires 0.0 <= v.saturation && v.saturation * LEVEL_SCALE < 65536.0
    requires 0.0 <= v.luma && v.luma * LEVEL_SCALE < 65536.0
    ensures |p| == 8
  {
    [v.index, 0]
    + U16Bytes(Quantize(v.hue, HUE_SCALE))
    + U16Bytes(Quantize(v.saturation, LEVEL_SCALE))
    + U16Bytes(Quantize(v.luma, LEVEL_SCALE))
  }

  lemma ColorGeneratorRoundTrip(v: ColorGenerator)
    requires ColorOnGrid(v)
    ensures DecodeColorGenerator(EncodeColorGenerator(v)) == Success(v)
  {
    var p := EncodeColorGenerator(v);
    assert p[2..4] == U16Bytes(Quantize(v.hue, HUE_SCALE));
    assert p[4..6] == U16Bytes(Quantize(v.saturation, LEVEL_SCALE));
    assert p[6..8] == U16Bytes(Quantize(v.luma, LEVEL_SCALE));
  }

  lemma ColorGeneratorPadding(p: seq<byte>, q: seq<byte>)
    requires AgreeOutside(p, q, {1})
    ensures DecodeColorGenerator(p) == DecodeColorGenerator(q)
  {
  }

  /** Every 8-byte payload decodes to values on the 1/10 and 1/1000 grids
      whose encoding gives back the three wire words. */
  lemma ColorGeneratorNormalForm(p: seq<byte>)
    requires |p| == 8
    ensures var v := DecodeColorGenerator(p).value;
            ColorOnGrid(v) && EncodeColorGenerator(v) == [p[0], 0] + p[2..8]
  {
    var h, s, l := U16At(p, 2), U16At(p, 4), U16At(p, 6);
    assert (h as real / HUE_SCALE) * HUE_SCALE == h as real;
    assert (s as real / LEVEL_SCALE) * LEVEL_SCALE == s as real;
    assert (l as real / LEVEL_SCALE) * LEVEL_SCALE == l as real;
    U16BytesOfRead(p, 2);
    U16BytesOfRead(p, 4);
    U16BytesOfRead(p, 6);
    assert p[2..8] == p[2..4] + p[4..6] + p[6..8];
  }

  /** Hue 1800, saturation 500 and luma 500 on the wire are 180 degrees,
      one half and one half. */
  lemma ColorGeneratorExample()
    ensures DecodeColorGenerator([2, 0, 0x07, 0x08, 0x01, 0xF4, 0x01, 0xF4])
         == Success(ColorGenerator(2, 180.0, 0.5, 0.5))
  {
  }

  // ---------------------------------------------------------------------------
  // `MPfe`

  function EncodeMediaplayerFileInfo(v: MediaplayerFileInfo): (p: seq<byte>)
    requires |v.hash| == 16 && |v.name| < 0x100
    ensures |p| == MEDIAPLAYER_HEADER + 1 + |v.name|
  {
    [v.kind, 0] + U16Bytes(v.index) + [TruthByte(v.isUsed)] + v.hash + [0, 0] + PascalField(v.name)
  }

  lemma MediaplayerFileInfoRoundTrip(v: MediaplayerFileInfo)
    requires |v.hash| == 16 && |v.name| < 0x100
    ensures DecodeMediaplayerFileInfo(EncodeMediaplayerFileInfo(v)) == Success(v)
  {
    var p := EncodeMediaplayerFileInfo(v);
    assert p[2..4] == U16Bytes(v.index);
    assert p[5..21] == v.hash;
    assert p[23..] == PascalField(v.name);
    PascalRoundTrip(v.name);
  }

  /** Bytes 1, 21 and 22 are reserved. */
  lemma MediaplayerFileInfoPadding(p: seq<byte>, q: seq<byte>)
    requires AgreeOutside(p, q, {1, 21, 22})
    ensures DecodeMediaplayerFileInfo(p) == DecodeMediaplayerFileInfo(q)
  {
    if |p| >= MEDIAPLAYER_HEADER {
      assert p[5..21] == q[5..21];
      assert p[23..] == q[23..];
    }
  }

  /** A name whose length byte claims five characters when only three follow
      is cut to those three. */
  lemma MediaplayerFileInfoShortName()
    ensures var p := [0, 0, 0, 1, 1] + seq(16, _ => 0xAA) + [0, 0] + [5, 0x41, 0x42, 0x43];
            DecodeMediaplayerFileInfo(p) == Success(MediaplayerFileInfo(0, 1, true, seq(16, _ => 0xAA), [0x41, 0x42, 0x43]))
  {
    var p: seq<byte> := [0, 0, 0, 1, 1] + seq(16, _ => 0xAA) + [0, 0] + [5, 0x41, 0x42, 0x43];
    assert p[5..21] == seq(16, _ => 0xAA);
    assert p[23..] == [5, 0x41, 0x42, 0x43];
  }
}

=== FILE: struct.dfy ===
/** The part of Python's `struct` module that the mixer record decoders use:
    big-endian (`>`) formats built from the codes `B`, `H`, `?`, `x`, `Ns`
    and `Np`, and the errors `unpack` and `unpack_from` raise. */
module Struct {

  /** One octet of a payload (`B`). */
  type byte = x: int | 0 <= x < 0x100

  /** An unsigned 16-bit integer (`H`). */
  type u16 = x: int | 0 <= x < 0x1_0000

  datatype Option<+T> = None | Some(value: T)

  /** Why a payload could not be unpacked. */
  datatype DecodeError =
      /** `struct.unpack` needs a buffer of exactly `expected` bytes. */
    | WrongSize(expected: nat, actual: nat)
      /** `struct.unpack_from` needs `size` bytes at `offset`; the buffer holds `actual`. */
    | TooShort(offset: nat, size: nat, actual: nat)
      /** The format string built at run time is not a valid format. */
    | BadFormat

  datatype Result<+T> = Success(value: T) | Failure(error: DecodeError)

  /** `>H` at offset `i`: the most significant byte comes first. */
  function U16At(p: seq<byte>, i: nat): u16
    requires i + 2 <= |p|
  {
    (p[i] as int) * 0x100 + p[i + 1] as int
  }

  /** The two bytes `>H` packs `v` into. */
  function U16Bytes(v: u16): (b: seq<byte>)
    ensures |b| == 2
    ensures U16At(b, 0) == v
  {
    [v / 0x100, v % 0x100]
  }

  /** Reading a `>H` and packing it again gives back the two bytes read. */
  lemma U16BytesOfRead(p: seq<byte>, i: nat)
    requires i + 2 <= |p|
    ensures U16Bytes(U16At(p, i)) == p[i..i + 2]
  {
  }

  /** `?`: any nonzero byte is true. */
  predicate Truth(b: byte) {
    b != 0
  }

  /** The byte `struct.pack('?', v)` writes. */
  function TruthByte(v: bool): (b: byte)
    ensures Truth(b) == v
  {
    if v then 1 else 0
  }

  function Pow2(k: nat): (r: nat)
    ensures r >= 1
  {
    if k == 0 then 1 else 2 * Pow2(k - 1)
  }

  lemma Powers()
    ensures Pow2(0) == 1 && Pow2(1) == 2 && Pow2(2) == 4 && Pow2(3) == 8 && Pow2(4) == 16
  {
  }

  /** `b & (1 << k) != 0`: bit `k` of `b` is set. */
  predicate Bit(b: byte, k: nat) {
    (b / Pow2(k)) % 2 == 1
  }

  /** A flag as a binary digit. */
  function Flag(b: bool): (d: nat)
    ensures d < 2
  {
    if b then 1 else 0
  }

  /** The byte whose bits 0..4 are `b0`..`b4` and whose bits 5..7 are clear. */
  function Mask5(b0: bool, b1: bool, b2: bool, b3: bool, b4: bool): (m: byte)
    ensures m < 32
  {
    Flag(b0) + 2 * (Flag(b1) + 2 * (Flag(b2) + 2 * (Flag(b3) + 2 * Flag(b4))))
  }

  /** Each flag given to `Mask5` reads back from its bit. */
  lemma Mask5Bits(b0: bool, b1: bool, b2: bool, b3: bool, b4: bool)
    ensures var m := Mask5(b0, b1, b2, b3, b4);
            Bit(m, 0) == b0 && Bit(m, 1) == b1 && Bit(m, 2) == b2 && Bit(m, 3) == b3 && Bit(m, 4) == b4
  {
    Powers();
    DigitsOf(Mask5(b0, b1, b2, b3, b4), Flag(b0), Flag(b1), Flag(b2), Flag(b3), Flag(b4));
  }

  /** The binary digits 0..4 of a number written with them. */
  lemma DigitsOf(m: int, d0: int, d1: int, d2: int, d3: int, d4: int)
    requires 0 <= d0 < 2 && 0 <= d1 < 2 && 0 <= d2 < 2 && 0 <= d3 < 2 && 0 <= d4 < 2
    requires m == d0 + 2 * (d1 + 2 * (d2 + 2 * (d3 + 2 * d4)))
    ensures m % 2 == d0 && (m / 2) % 2 == d1 && (m / 4) % 2 == d2 && (m / 8) % 2 == d3 && (m / 16) % 2 == d4
  {
  }

  /** Bits 0..4 of a byte determine its value modulo 32: the five flags read
      from a byte carry exactly the information of its low five bits. */
  lemma Mask5OfBits(b: byte)
    ensures Mask5(Bit(b, 0), Bit(b, 1), Bit(b, 2), Bit(b, 3), Bit(b, 4)) == b % 32
  {
    Powers();
    LowFiveBits(b);
  }

  /** Bits 0 and 1 of a byte determine its value modulo 4. */
  lemma Mask2OfBits(b: byte)
    ensures Mask5(Bit(b, 0), Bit(b, 1), false, false, false) == b % 4
  {
    Powers();
    LowTwoBits(b);
  }

  /** A natural number modulo 4 spelled out from its two lowest binary digits. */
  lemma LowTwoBits(b: int)
    requires 0 <= b
    ensures b % 4 == b % 2 + 2 * ((b / 2) % 2)
  {
    var q1 := b / 2;
    var k := q1 / 2;
    assert q1 == 2 * k + q1 % 2;
    assert b == 4 * k + (b % 2 + 2 * (q1 % 2));
    HalfOfQuotient2(b);
  }

  /** A natural number modulo 32 spelled out from its five lowest binary digits. */
  lemma LowFiveBits(b: int)
    requires 0 <= b
    ensures b % 32 == b % 2 + 2 * ((b / 2) % 2 + 2 * ((b / 4) % 2 + 2 * ((b / 8) % 2 + 2 * ((b / 16) % 2))))
  {
    HalfOfQuotient2(b);
    HalfOfQuotient4(b);
    HalfOfQuotient8(b);
    NestedLowFiveBits(b);
  }

  lemma HalfOfQuotient2(b: int)
    requires 0 <= b
    ensures b / 2 / 2 == b / 4
  {
  }

  lemma HalfOfQuotient4(b: int)
    requires 0 <= b
    ensures b / 4 / 2 == b / 8
  {
  }

  lemma HalfOfQuotient8(b: int)
    requires 0 <= b
    ensures b / 8 / 2 == b / 16
  {
  }

  /** The same, halving one step at a time. */
  lemma NestedLowFiveBits(b: int)
    requires 0 <= b
    ensures b % 32 == b % 2 + 2 * ((b / 2) % 2 + 2 * ((b / 2 / 2) % 2
                      + 2 * ((b / 2 / 2 / 2) % 2 + 2 * ((b / 2 / 2 / 2 / 2) % 2))))
  {
    var q1 := b / 2;
    var q2 := q1 / 2;
    var q3 := q2 / 2;
    var q4 := q3 / 2;
    var c4 := q4 % 2;
    var c3 := q3 % 2 + 2 * c4;
    var c2 := q2 % 2 + 2 * c3;
    var c1 := q1 % 2 + 2 * c2;
    var low := b % 2 + 2 * c1;
    var k := q4 / 2;
    assert q4 == 2 * k + c4;
    assert q3 == 4 * k + c3;
    assert q2 == 8 * k + c2;
    assert q1 == 16 * k + c1;
    assert b == 32 * k + low;
    RemainderOf(b, k, low);
  }

  /** The remainder of `32 * k + low` by 32 is `low` when `low` is below 32. */
  lemma RemainderOf(b: int, k: int, low: int)
    requires b == 32 * k + low && 0 <= low < 32
    ensures b % 32 == low
  {
  }

  /** The Pascal string `struct.unpack('Np', field)` yields for an `N`-byte
      field: the first byte counts the characters that follow, clamped to the
      `N - 1` bytes the field has room for. A zero-width field yields nothing.
      That is a modelling choice: unless it checks for size 0, CPython
      computes a length of -1 there and raises `SystemError`. */
  function PascalString(field: seq<byte>): (s: seq<byte>)
    ensures |field| == 0 ==> s == []
    ensures |field| > 0 ==> |s| == (if field[0] < |field| - 1 then field[0] else |field| - 1)
    ensures |field| > 0 ==> s == field[1..1 + |s|]
  {
    if |field| == 0 then []
    else if field[0] < |field| - 1 then field[1..1 + field[0]]
    else field[1..]
  }

  /** The field `struct.pack('Np', s)` writes when `N` leaves room for all of `s`. */
  function PascalField(s: seq<byte>): (field: seq<byte>)
    requires |s| < 0x100
    ensures |field| == |s| + 1
  {
    [|s|] + s
  }

  lemma PascalRoundTrip(s: seq<byte>)
    requires |s| < 0x100
    ensures PascalString(PascalField(s)) == s
  {
  }

  /** `p` and `q` have the same length and agree at every position outside `skip`. */
  ghost predicate AgreeOutside(p: seq<byte>, q: seq<byte>, skip: set<int>) {
    |p| == |q| && forall i :: 0 <= i < |p| && i !in skip ==> p[i] == q[i]
  }
}

=== FILE: video_modes.dfy ===
/** The video standards a mixer can run in (`VideoModeField`): the table from
    mode code to resolution, scan and frame rate, and the human label. */
module VideoModes {
  import opened Struct
  import opened DecimalText

  /** One row of the mode table. The rate is held in hundredths of a hertz,
      so 59.94 Hz is 5994. */
  datatype ModeFormat = ModeFormat(resolution: nat, interlaced: bool, rateCentiHz: nat)

  /** The `modes` table of `VideoModeField.__init__`. */
  const Modes: map<int, ModeFormat> := map[
    0 := ModeFormat(525, true, 5994),
    1 := ModeFormat(625, true, 5000),
    2 := ModeFormat(525, true, 5994),
    3 := ModeFormat(625, true, 5000),
    4 := ModeFormat(720, false, 5000),
    5 := ModeFormat(720, false, 5994),
    6 := ModeFormat(1080, true, 5000),
    7 := ModeFormat(1080, true, 5994),
    8 := ModeFormat(1080, false, 2398),
    9 := ModeFormat(1080, false, 2400),
    10 := ModeFormat(1080, false, 2500),
    11 := ModeFormat(1080, false, 2997),
    12 := ModeFormat(1080, false, 5000),
    13 := ModeFormat(1080, false, 5994),
    14 := ModeFormat(2160, false, 2398),
    15 := ModeFormat(2160, false, 2400),
    16 := ModeFormat(2160, false, 2500),
    17 := ModeFormat(2160, false, 2997),
    26 := ModeFormat(1080, false, 3000),
    27 := ModeFormat(1080, false, 6000)
  ]

  /** What `VideoModeField` assigns for a mode code: the table row for a
      known code; nothing at all for any other code. */
  function FormatOf(mode: byte): (f: Option<ModeFormat>)
    ensures f.Some? <==> mode <= 17 || mode == 26 || mode == 27
    ensures f.Some? ==> mode in Modes && f.value == Modes[mode]
  {
    if mode in Modes then Some(Modes[mode]) else None
  }

  /** A decoded `VidM` record: the raw mode code and, for a known code, its
      row of the table. */
  datatype VideoMode = VideoMode(mode: byte, format: Option<ModeFormat>)

  /** `str()` of a rate from the table: the whole rates are Python ints and
      print without a fraction; the others are floats and print with the
      shortest decimal fraction that denotes them. */
  function RateText(centiHz: nat): (s: string)
    ensures |s| >= 1 && IsDigit(s[0])
  {
    var whole := Decimal(centiHz / 100);
    var frac := centiHz % 100;
    if frac == 0 then whole
    else if frac % 10 == 0 then whole + "." + [DigitChar(frac / 10)]
    else whole + "." + [DigitChar(frac / 10), DigitChar(frac % 10)]
  }

  const UnknownPrefix: string := "unknown ["

  /** The evident intent of `VideoModeField.get_label`: `unknown [<mode>]`
      for a code without a table row, otherwise resolution, `i` or `p`, and
      rate. A label names an unknown mode exactly when the code has no row. */
  function Label(v: VideoMode): (s: string)
    ensures UnknownPrefix <= s <==> v.format.None?
    ensures v.format.Some? ==> Decimal(v.format.value.resolution) <= s
  {
    match v.format
    case None => UnknownPrefix + Decimal(v.mode) + "]"
    case Some(f) =>
      var text := Decimal(f.resolution) + (if f.interlaced then "i" else "p") + RateText(f.rateCentiHz);
      assert IsDigit(text[0]);
      text
  }

  /** `VideoModeField.get_label` as written: it reads `self.resolution`,
      which `__init__` assigns only for a known code, so for any other code
      the call raises `AttributeError` (modelled as `None`). */
  function LabelAsWritten(v: VideoMode): (s: Option<string>)
    ensures s.None? <==> v.format.None?
    ensures s.Some? ==> s.value == Label(v)
  {
    match v.format
    case None => None
    case Some(_) => Some(Label(v))
  }
}
